=== FILE: README.md ===
# FaultSim error-statistics scripts, modelled in Dafny

FaultSim is a Monte-Carlo memory reliability simulator. Each run writes a
log named after its configuration, such as `dimm_secded_32gb_log.txt`. A
`[MODULE0]` summary line in the log gives the number of trials and the
failure rates. Two Python scripts post-process these logs:

- `parse_error_stats.py` is the log extractor. `parse_error_stats_DDR5.py` is
  a byte-identical copy, so one model serves both. It does four things:
  - it reads the ECC type and the capacity from each log's file name;
  - it splits the failed trials into three disjoint error classes:
    correctable (CE), detected-uncorrectable (DUE, reported as "UE") and
    silent data corruption (SDC);
  - it orders the result rows by a fixed ECC priority and then by capacity;
  - it sums the classes per ECC type.
- `visualize_error_stats.py` reads the resulting table and turns capacity
  labels into numbers. It orders the table by ECC name and capacity, builds
  the capacity axis, and computes each ECC type's improvement rate over
  "No ECC".

The model is split into these modules:

| module | file | models |
|---|---|---|
| `Wrappers` | wrappers.dfy | `Option`, and the "skip what yields None" fold used for the row loop |
| `Text` | text.dfy | ASCII `lower`/`upper`, digits, `in` on strings, `replace(pat, "")`, Python's string order |
| `Sorting` | sorting.dfy | Python's stable `sort(key=…)`, with keys compared as tuples |
| `LogNames` | log_names.dfy | the file-name expression `dimm_([^_]+)(?:_(\d+gb))?_log\.txt` and `extract_config_info_from_filename` |
| `ErrorStats` | error_stats.dfy | the error-class split, one row per usable log, and the report order |
| `EccTotals` | ecc_totals.dfy | the per-ECC aggregation loop |
| `Charts` | charts.dfy | `parse_capacity`, the chart's row and axis orders, and the improvement rate |

The regular expression is modelled twice:
- `LogNames.MatchLogName` is a direct matcher;
- `LogNames.MatchesWith` says declaratively which group values the
  expression admits.

The two are proved to agree in both directions. This includes the rule that
`re.match` reports the capacity group whenever some match has one.

## Model

| member | source | states |
|---|---|---|
| LogNames.MatchLogName | parse_error_stats.py:69-72 | the matcher fails on a name without the `dimm_` prefix, and a match's ECC group is a non-empty token without `_` that directly follows the prefix. MatchLogNameExact and MatchLogNameFails state the whole expression |
| LogNames.MatchLogNameSound | parse_error_stats.py:69 | every match the matcher reports is one the expression admits: a non-empty token without `_`, an optional `<digits>gb` group, in the places the expression gives them, as a prefix of the name |
| LogNames.MatchLogNameComplete | parse_error_stats.py:69 | whenever the expression admits a match, the matcher succeeds with that same token, and with that same capacity group when the admitted match has one |
| LogNames.MatchLogNameExact | parse_error_stats.py:69 | the matcher returns groups (t, g) if and only if the expression admits them, and it reports no capacity group only when no match with a capacity group exists |
| LogNames.MatchLogNameFails | parse_error_stats.py:69-72 | the matcher fails if and only if no token and capacity group make the expression match |
| LogNames.ParseFilename | parse_error_stats.py:63-85 | the parser returns no configuration exactly when the lower-cased name does not match, and a parsed ECC label is never empty. ParseFilenameWithCapacity, ParseFilenameDefaultCapacity, ParseFilenameRejects and ParseFilenameLabels state what it returns |
| LogNames.ParseFilenameWithCapacity | parse_error_stats.py:69-85 | a name that lower-cases to `dimm_<token>_<digits>gb_log.txt` followed by anything yields the normalised upper-cased token and `<digits>GB` |
| LogNames.ParseFilenameDefaultCapacity | parse_error_stats.py:75 | a name that lower-cases to `dimm_<token>_log.txt` followed by anything yields the normalised token and the default capacity `2GB` |
| LogNames.ParseFilenameRejects | parse_error_stats.py:69-72 | the parser returns no configuration if and only if the lower-cased name admits no match of the expression |
| LogNames.ParseFilenameLabels | parse_error_stats.py:74-75 | a parsed ECC label is the normalisation of an upper-cased token without `_` or upper-case letters, and a parsed capacity is always digits followed by `GB` |
| LogNames.NormalizeEcc | parse_error_stats.py:77-83 | `CHIPKILL` becomes `ChipKill`, `NONE` becomes `No ECC`, and every other upper-cased token (`SECDED` among them) is kept. EccLabelCases and EccLabelInjective state it on the tokens a name can carry |
| LogNames.EccLabelCases | parse_error_stats.py:74-83 | on a lower-case token, `chipkill` gives `ChipKill`, `none` gives `No ECC`, and every other token (`secded` among them) gives its upper-cased self |
| LogNames.EccLabelInjective | parse_error_stats.py:74-83 | under the ASCII case mapping, two lower-case tokens that give the same ECC label are the same token |
| LogNames.ParseFilenameExample | parse_error_stats.py:66 | `dimm_secded_32gb_log.txt` gives ("SECDED", "32GB") |
| ErrorStats.ClassifyFailures | parse_error_stats.py:42-48 | for all integers, CE + DUE + SDC equals the failed trials, and DUE + SDC is the uncorrectable count. The critical-error rate times the trial count is that count when there are trials, and the rate is 0 otherwise. DUE is negative exactly when the undetected count exceeds the uncorrectable one |
| ErrorStats.ClassifyFailuresExample | parse_error_stats.py:42-48 | the summary with 1000000 trials, 112090 failed, 747 uncorrectable and 16 undetected gives CE 111343, DUE 731, SDC 16 and rate 0.000747 |
| ErrorStats.Basename | parse_error_stats.py:105 | the base name is the suffix of the path after its last `/` and contains no `/` |
| ErrorStats.RowFrom | parse_error_stats.py:122-131 | the appended row carries the given ECC type and capacity, and its counts are the summary's: SDC is the undetected count, UE+SDC the uncorrectable count, DUE their difference, CE the failed trials less the uncorrectable ones, and the rate UE+SDC over the trials (0 without trials). Its classes add up to the failed trials |
| ErrorStats.RowOf | parse_error_stats.py:105-131 | a log yields a row exactly when its name parses and its summary line is present; the row carries the parsed ECC type and capacity. Its counts are the summary's: SDC is the undetected count, UE+SDC the uncorrectable count, DUE their difference, CE the failed trials less the uncorrectable ones, and the rate UE+SDC over the trials (0 without trials). Its classes add up to the failed trials |
| ErrorStats.CollectRows | parse_error_stats.py:104-131 | no more rows are collected than there are logs. CollectRowsSpec, CollectRowsKeepsRow, MissingSummarySkipped and UnparsableNameSkipped state which rows are collected and where |
| ErrorStats.CollectRowsSpec | parse_error_stats.py:104-131 | a row is collected if and only if some log yields it, and every collected row is balanced |
| ErrorStats.VisitOrder | parse_error_stats.py:104 | logs are visited as a permutation of the found paths, ascending in Python's string order |
| ErrorStats.EccPriority | parse_error_stats.py:145-146 | each if and only if: No ECC has priority 0, SECDED 1, ChipKill 2, and every other type 3 |
| ErrorStats.ReportCapacityNumber | parse_error_stats.py:148-151 | a label without `GB` sorts by its own value when it is a numeral, and as 0 otherwise. CapacityKeysAgree relates it to the chart's number |
| ErrorStats.ReportCapacityOfNumeral | parse_error_stats.py:148-151 | a label `<digits>GB` sorts by the value of its digits |
| ErrorStats.SortResults | parse_error_stats.py:143-155 | the report is a permutation of the rows, ordered by ECC priority and then by numeric capacity, and rows with equal keys keep their relative order |
| ErrorStats.ReportEccOrder | parse_error_stats.py:143-155 | in the report, only No ECC rows come before a No ECC row, only No ECC and SECDED rows before a SECDED row, and only the three known types before a ChipKill row |
| ErrorStats.Tabulate | parse_error_stats.py:104-155 | the report is a permutation of the rows collected in path order, in report order. Rows with equal sort keys keep the path order. A row is reported if and only if some log yields it, and every reported row is balanced |
| ErrorStats.CollectRowsKeepsRow | parse_error_stats.py:104-131 | a log that yields a row contributes exactly that one row, after the rows of the logs visited before it and before those of the logs visited after it |
| ErrorStats.MissingSummarySkipped | parse_error_stats.py:116-120 | a log without a summary line leaves the collected rows exactly as they were without it, whatever its name |
| ErrorStats.UnparsableNameSkipped | parse_error_stats.py:109-113 | a log whose name does not parse leaves the collected rows exactly as they were without it, whatever its content |
| EccTotals.AggregateByEcc | parse_error_stats.py:167-177 | the map's keys are exactly the ECC types present in the rows. Each entry is the field-wise sum over that type's rows, and its count is the number of those rows, which is positive. For balanced rows, each entry's summed CE + DUE + SDC equals its summed total |
| EccTotals.SumBalanced | parse_error_stats.py:173-176 | summing balanced rows keeps CE + DUE + SDC equal to the total |
| Sorting.SortBy | parse_error_stats.py:155 | the stable sort's result is ordered by key, is a permutation of its input, and keeps every key class in its original order |
| Sorting.SortBySorted | parse_error_stats.py:155 | sorting a sequence that is already ordered by the key leaves it unchanged |
| Sorting.SortTwo | parse_error_stats.py:155 | sorting two elements swaps them exactly when the first one's key is above the second's; equal keys stay in place |
| Sorting.CodePointsOrder | parse_error_stats.py:104 | comparing code-point sequences lexicographically is Python's `<=` on strings |
| Sorting.StrIntKeyOrder | visualize_error_stats.py:44 | the key of a (string, integer) pair orders pairs by the string in Python's order, then by the integer |
| Text.Lower | parse_error_stats.py:69 | `lower()` keeps the length and maps each character on its own: ASCII capitals become lower case, every other character is kept |
| Text.Upper | parse_error_stats.py:74-75 | `upper()` keeps the length and maps each character on its own: ASCII lower-case letters become capitals, every other character is kept |
| Text.Contains | visualize_error_stats.py:30 | a string holds every prefix of itself, and nothing longer than itself |
| Text.ContainsAt | visualize_error_stats.py:30 | `sub in s` holds if and only if `sub` occurs at some index of `s` |
| Text.RemoveAll | visualize_error_stats.py:31 | removing every occurrence of a pattern never lengthens a string, leaves a string without the pattern unchanged, and shortens a string holding the pattern by at least the pattern's length |
| Text.RemoveAllAtFirst | visualize_error_stats.py:31 | `replace` works left to right: for `s == p + pat + q` where `pat` starts at no index inside `p`, the result is `p` followed by the removal applied to `q` |
| Text.RemoveSuffixOfDigits | visualize_error_stats.py:31 | removing a pattern that does not start with a digit from a numeral followed by that pattern gives back the numeral |
| Charts.ParseInt | visualize_error_stats.py:35 | the model's reading of `int()`: nothing on the empty string; an unsigned ASCII numeral gives its value, a `+` numeral its value and a `-` numeral the negated value; every other string gives nothing |
| Charts.ParseCapacity | visualize_error_stats.py:28-36 | a label without `GB` gives 0; for a label with `GB`, the remainder once every `GB` is removed is read as a float exactly when it has a dot (the float's numeral is that remainder), and otherwise by `int()`: a whole number exactly when `int()` reads the remainder as that number, and a failure exactly when `int()` fails on it |
| Charts.CapacityOfStrippedNumeral | visualize_error_stats.py:28-36 | any label with `GB` whose remainder, once every `GB` is removed, is a plain numeral reads as that numeral's value in the chart and sorts by the same value in the report (parse_error_stats.py:148-151), e.g. `1GB0GB` as 10 and `GB32` as 32 |
| Charts.ParseCapacityOfNumeral | visualize_error_stats.py:30-35 | a decimal numeral followed by `GB` reads as the numeral's value |
| Charts.ParseCapacityExample | visualize_error_stats.py:28-36 | `32GB` reads as 32 |
| Charts.CapacityKeysAgree | visualize_error_stats.py:28-36 | on every capacity label the log parser produces, the chart's number equals the report's sort number |
| Charts.ChartCapacityNum | visualize_error_stats.py:43 | the `capacity_num` column is the whole number `parse_capacity` gives, and 0 for a label without `GB` |
| Charts.ChartOrder | visualize_error_stats.py:43-44 | the chart table is a permutation of its rows, ordered by ECC type as a plain string and then by capacity number, stable on equal keys |
| Charts.ChartAndReportOrdersDiffer | visualize_error_stats.py:44 | the chart orders ECC names ChipKill < No ECC < SECDED. A SECDED row and a ChipKill row come out in opposite orders in the chart and in the report |
| Charts.Distinct | visualize_error_stats.py:60 | `unique()` keeps exactly the input's values, each once, in the order of their first appearance |
| Charts.CapacityAxis | visualize_error_stats.py:60 | the axis holds every capacity label exactly once, ascending by number; labels of equal number keep their first-appearance order |
| Charts.ImprovementRate | visualize_error_stats.py:217-218 | with no-ECC failures, the rate times the no-ECC count is 100 times the reduction; without them the rate is 0 |
| Charts.ImprovementRateBounds | visualize_error_stats.py:217-218 | with no-ECC failures, the rate is positive exactly when the ECC type fails less, 0 exactly when it fails as often, and 100 exactly when it never fails. It is at most 100 whenever the ECC failure count is not negative |

## Left out

- File and directory I/O is left out. This covers `glob` over the results directory, reading logs, writing the CSV, and the summary text file. A log is represented by its path and the summary its content yields.
- The `[MODULE0]` summary regex and the float products `int(sims * rate)` are left out. A summary is four integers, with the two products, truncated toward zero by `int()`, taken as given. The `try`/`except` around reading is I/O and is left out with it.
- The printed tables, percentage breakdowns, growth ratios and their float formatting are display only.
- All matplotlib, seaborn and pandas rendering is left out. This covers subplots, stacked bars, heatmaps, `pivot`/`reindex`, and the `.loc` lookups that feed each plot.
- Charts.ImprovementRate: computed in exact reals, not IEEE doubles. The `.loc` lookup that raises when a type has no row for a capacity is not modelled.
- ErrorStats.SortResults: a capacity label containing `.` gets sort number 0. The source would read it as a float, or raise for labels with several dots. The file-name parser never produces such labels (LogNames.ParseFilenameLabels). The source's sort number is a float (`float(...)` at parse_error_stats.py:151), so two capacities above 2^53 that round to the same double tie there, such as `9007199254740993GB` and `9007199254740992GB`. The model orders them by their exact values.
- ErrorStats.ClassifyFailures: the critical-error rate is an exact rational, not a Python float, so the rate times the trial count gives back the uncorrectable count exactly.
- Charts.ChartOrder: requires every capacity to read as an integer. The float branch of `parse_capacity` is not modelled, and a label `int()` rejects makes the source raise.
- Charts.CapacityAxis: requires every capacity to read as an integer, for the same reason.
- Text.Lower: changes ASCII letters only; Python's Unicode case mapping of `lower()` is not modelled.
- Text.Upper: changes ASCII letters only; Python's Unicode case mapping of `upper()` is not modelled.
- Charts.ParseInt: reads only an optional sign followed by ASCII digits. Python's `int()` also accepts surrounding whitespace (`" 5"`), `_` separators (`"1_0"`) and Unicode digits (`"٣"`); the model gives nothing on these. ChartOrder's precondition therefore excludes labels whose remainder is such a numeral. `\d` and `isdigit()` are likewise modelled on ASCII digits.
- The order of the aggregation dictionary's keys (insertion order) is not modelled. The map only states what each ECC type's entry holds.
- `pandas.sort_values` on two columns is modelled as a stable sort, as `list.sort` is.
- The comment at parse_error_stats.py:48 calls the critical-error rate a probability. Nothing in the code keeps it in [0, 1] or keeps DUE non-negative: both are whatever the truncated counts give, and ErrorStats.ClassifyFailures states them for all integers.

=== FILE: charts.dfy ===
/**
 The chart script's bookkeeping: the numeric value of a capacity label, the
 order of the table's rows and of the capacity axis, and the improvement rate
 of an ECC type over no ECC.
 */
module Charts {
  import opened Wrappers
  import opened Text
  import opened Sorting
  import opened LogNames
  import opened ErrorStats

  /**
   What `parse_capacity` returns: an integer, a float (kept as its numeral),
   or the `ValueError` that `int()` raises on anything else.
   */
  datatype CapacityValue = Whole(n: int) | Fractional(numeral: string) | NotANumber

  /**
   The model's reading of Python's `int(numeral)`: an optional `+` or `-`
   followed by ASCII digits gives its value; None on anything else.
   */
  function ParseInt(numeral: string): (r: Option<int>)
    ensures |numeral| == 0 ==> r.None?
    ensures |numeral| > 0 && IsDigits(numeral) ==> r == Some(DigitsValue(numeral))
    ensures |numeral| > 1 && numeral[0] == '-' && IsDigits(numeral[1..]) ==> r.Some? && r.value == -(DigitsValue(numeral[1..]) as int)
    ensures |numeral| > 1 && numeral[0] == '+' && IsDigits(numeral[1..]) ==> r == Some(DigitsValue(numeral[1..]))
    ensures r.Some? ==>
      (|numeral| > 0 && IsDigits(numeral))
      || (|numeral| > 1 && (numeral[0] == '+' || numeral[0] == '-') && IsDigits(numeral[1..]))
  {
    if |numeral| > 0 && IsDigits(numeral) then Some(DigitsValue(numeral))
    else if |numeral| > 1 && (numeral[0] == '+' || numeral[0] == '-') && IsDigits(numeral[1..]) then
      var magnitude: int := DigitsValue(numeral[1..]);
      Some(if numeral[0] == '-' then -magnitude else magnitude)
    else None
  }

  /**
   `parse_capacity`: 0 for a label without `GB`; otherwise the number left
   once every `GB` is removed, a float when that contains a dot.
   */
  function ParseCapacity(capacity: string): (v: CapacityValue)
    ensures !Contains(capacity, LabelUnit) ==> v == Whole(0)
    ensures v.Fractional? ==> Contains(capacity, LabelUnit) && Contains(v.numeral, ".")
    ensures v.Fractional? ==> v.numeral == RemoveAll(capacity, LabelUnit)
    ensures v.NotANumber? ==> Contains(capacity, LabelUnit)
    ensures Contains(capacity, LabelUnit) && !Contains(RemoveAll(capacity, LabelUnit), ".") ==>
      (v.NotANumber? <==> ParseInt(RemoveAll(capacity, LabelUnit)).None?)
    ensures Contains(capacity, LabelUnit) && v.Whole? ==> ParseInt(RemoveAll(capacity, LabelUnit)) == Some(v.n)
  {
    if !Contains(capacity, LabelUnit) then Whole(0)
    else
      var num := RemoveAll(capacity, LabelUnit);
      if Contains(num, ".") then Fractional(num)
      else match ParseInt(num)
        case Some(n) => Whole(n)
        case None => NotANumber
  }

  lemma {:induction false} DigitsHaveNoDot(d: string)
    requires IsDigits(d)
    ensures !Contains(d, ".")
    decreases |d|
  {
    if |d| > 0 {
      assert !("." <= d) by {
        assert IsDigit(d[0]);
      }
      DigitsHaveNoDot(d[1..]);
    }
  }

  lemma {:induction false} EndsWithUnit(d: string)
    ensures Contains(d + LabelUnit, LabelUnit)
  {
    if |d| > 0 {
      assert (d + LabelUnit)[1..] == d[1..] + LabelUnit;
      EndsWithUnit(d[1..]);
    } else {
      assert LabelUnit <= d + LabelUnit;
    }
  }

  /** A numeral followed by `GB` is read as the numeral's value. */
  lemma {:induction false} ParseCapacityOfNumeral(d: string)
    requires |d| > 0 && IsDigits(d)
    ensures ParseCapacity(d + LabelUnit) == Whole(DigitsValue(d))
  {
    EndsWithUnit(d);
    RemoveSuffixOfDigits(d, LabelUnit);
    DigitsHaveNoDot(d);
  }

  /**
   Any label holding `GB` whose remainder, once every `GB` is removed, is a
   plain numeral reads as that numeral in both the chart and the report:
   `+5GB` is not such a label, `1GB0GB` reads as 10 and `GB32` as 32.
   */
  lemma {:induction false} CapacityOfStrippedNumeral(capacity: string)
    requires Contains(capacity, LabelUnit)
    requires |RemoveAll(capacity, LabelUnit)| > 0 && IsDigits(RemoveAll(capacity, LabelUnit))
    ensures ParseCapacity(capacity) == Whole(DigitsValue(RemoveAll(capacity, LabelUnit)))
    ensures ReportCapacityNumber(capacity) == DigitsValue(RemoveAll(capacity, LabelUnit))
  {
    DigitsHaveNoDot(RemoveAll(capacity, LabelUnit));
  }

  lemma {:induction false} ParseCapacityExample(capacity: string)
    requires capacity == "32GB"
    ensures ParseCapacity(capacity) == Whole(32)
  {
    var d := "32";
    assert capacity == d + LabelUnit;
    assert DigitsValue(d) == 32 by {
      assert d[..1] == "3";
      assert "3"[..0] == "";
    }
    ParseCapacityOfNumeral(d);
  }

  /** The report's capacity number and the chart's agree on every label the log parser produces. */
  lemma {:induction false} CapacityKeysAgree(name: string)
    requires ParseFilename(name).Some?
    ensures ParseCapacity(ParseFilename(name).value.1) == Whole(ReportCapacityNumber(ParseFilename(name).value.1))
  {
    ParseFilenameLabels(name);
    var c := ParseFilename(name).value.1;
    var d := c[..|c| - |LabelUnit|];
    assert c == d + LabelUnit;
    ParseCapacityOfNumeral(d);
    RemoveSuffixOfDigits(d, LabelUnit);
  }

  /** The `capacity_num` column, for labels that read as whole numbers. */
  function ChartCapacityNum(capacity: string): (n: int)
    ensures ParseCapacity(capacity).Whole? ==> n == ParseCapacity(capacity).n
    ensures !Contains(capacity, LabelUnit) ==> n == 0
  {
    match ParseCapacity(capacity)
    case Whole(n) => n
    case _ => 0
  }

  function ChartKey(r: Row): (k: seq<int>)
  {
    StrIntKey(r.ecc, ChartCapacityNum(r.capacity))
  }

  /**
   The chart table's row order: by ECC type compared as a plain string, then
   by capacity, keeping the order of rows with equal keys.
   */
  function ChartOrder(rows: seq<Row>): (sorted: seq<Row>)
    requires forall r :: r in rows ==> ParseCapacity(r.capacity).Whole?
    ensures multiset(sorted) == multiset(rows)
    ensures forall i, j :: 0 <= i < j < |sorted| ==>
      StrLess(sorted[i].ecc, sorted[j].ecc)
      || (sorted[i].ecc == sorted[j].ecc && ChartCapacityNum(sorted[i].capacity) <= ChartCapacityNum(sorted[j].capacity))
    ensures forall k :: WithKey(sorted, ChartKey, k) == WithKey(rows, ChartKey, k)
  {
    var sorted := SortBy(rows, ChartKey);
    forall i, j | 0 <= i < j < |sorted|
      ensures StrLess(sorted[i].ecc, sorted[j].ecc)
        || (sorted[i].ecc == sorted[j].ecc && ChartCapacityNum(sorted[i].capacity) <= ChartCapacityNum(sorted[j].capacity))
    {
      var a, b := sorted[i], sorted[j];
      StrIntKeyOrder(a.ecc, ChartCapacityNum(a.capacity), b.ecc, ChartCapacityNum(b.capacity));
    }
    sorted
  }

  /**
   The chart orders ECC names alphabetically (ChipKill, No ECC, SECDED), so a
   ChipKill row comes before a SECDED row there, while the report puts SECDED first.
   */
  lemma {:induction false} ChartAndReportOrdersDiffer(secded: Row, chipkill: Row)
    requires secded.ecc == "SECDED" && chipkill.ecc == "ChipKill"
    requires ParseCapacity(secded.capacity).Whole? && ParseCapacity(chipkill.capacity).Whole?
    ensures StrLess("ChipKill", "No ECC") && StrLess("No ECC", "SECDED")
    ensures ChartOrder([secded, chipkill]) == [chipkill, secded]
    ensures SortResults([chipkill, secded]) == [secded, chipkill]
  {
    var x, y := ChartCapacityNum(secded.capacity), ChartCapacityNum(chipkill.capacity);
    StrIntKeyOrder(secded.ecc, x, chipkill.ecc, y);
    SortTwo(secded, chipkill, ChartKey);
    SortTwo(chipkill, secded, ReportKey);
    PairOrder(2, ReportCapacityNumber(chipkill.capacity), 1, ReportCapacityNumber(secded.capacity));
  }

  predicate NoDuplicates<T(==)>(s: seq<T>)
  {
    forall i, j :: 0 <= i < j < |s| ==> s[i] != s[j]
  }

  /** The index of the first occurrence of `x` in `s`. */
  function FirstIndex<T(==)>(s: seq<T>, x: T): (k: nat)
    requires x in s
    ensures k < |s| && s[k] == x
    ensures forall m :: 0 <= m < k ==> s[m] != x
  {
    if s[0] == x then 0 else 1 + FirstIndex(s[1..], x)
  }

  /** Appending to a sequence does not move the first occurrence of a value it already holds. */
  lemma {:induction false} FirstIndexOfPrefix<T>(s: seq<T>, t: seq<T>, x: T)
    requires x in s
    ensures x in s + t && FirstIndex(s + t, x) == FirstIndex(s, x)
  {
    var k := FirstIndex(s, x);
    assert (s + t)[k] == x;
  }

  /**
   `Series.unique()`: each value once, in order of first appearance: the values
   of `d` come in the order in which they first occur in `s`.
   */
  function Distinct(s: seq<string>): (d: seq<string>)
    ensures forall x :: x in d <==> x in s
    ensures NoDuplicates(d)
    ensures forall i, j :: 0 <= i < j < |d| ==> d[i] in s && d[j] in s && FirstIndex(s, d[i]) < FirstIndex(s, d[j])
  {
    if |s| == 0 then []
    else
      var d := Distinct(s[..|s| - 1]);
      DistinctStep(s, d);
      if s[|s| - 1] in d then d else d + [s[|s| - 1]]
  }

  /** One step of `unique()`: the last value is kept only when it is new, and first occurrences keep their order. */
  lemma {:induction false} DistinctStep(s: seq<string>, d: seq<string>)
    requires |s| > 0
    requires forall x :: x in d <==> x in s[..|s| - 1]
    requires NoDuplicates(d)
    requires forall i, j :: 0 <= i < j < |d| ==>
      d[i] in s[..|s| - 1] && d[j] in s[..|s| - 1] && FirstIndex(s[..|s| - 1], d[i]) < FirstIndex(s[..|s| - 1], d[j])
    ensures var e := if s[|s| - 1] in d then d else d + [s[|s| - 1]];
      (forall x :: x in e <==> x in s) && NoDuplicates(e)
      && forall i, j :: 0 <= i < j < |e| ==> e[i] in s && e[j] in s && FirstIndex(s, e[i]) < FirstIndex(s, e[j])
  {
    var prefix, last := s[..|s| - 1], s[|s| - 1];
    assert s == prefix + [last];
    var e := if last in d then d else d + [last];
    forall i | 0 <= i < |e|
      ensures e[i] in s && FirstIndex(s, e[i]) == (if e[i] in prefix then FirstIndex(prefix, e[i]) else |s| - 1)
    {
      if i < |d| {
        assert e[i] == d[i] && d[i] in d;
        FirstIndexOfPrefix(prefix, [last], e[i]);
      } else {
        assert e[i] == last && last !in prefix;
        assert forall m :: 0 <= m < |prefix| ==> s[m] == prefix[m];
      }
    }
    forall i, j | 0 <= i < j < |e|
      ensures e[i] != e[j] && FirstIndex(s, e[i]) < FirstIndex(s, e[j])
    {
      if j == |d| {
        assert e[i] == d[i] && e[j] == last && last !in prefix;
      } else {
        assert e[i] == d[i] && e[j] == d[j];
      }
    }
  }

  lemma {:induction false} CountsOfDistinct<T>(s: seq<T>)
    requires NoDuplicates(s)
    ensures forall x :: multiset(s)[x] <= 1
    decreases |s|
  {
    if |s| > 0 {
      var t := s[..|s| - 1];
      assert NoDuplicates(t) by {
        forall i, j | 0 <= i < j < |t|
          ensures t[i] != t[j]
        {
          assert t[i] == s[i] && t[j] == s[j];
        }
      }
      CountsOfDistinct(t);
      assert s == t + [s[|s| - 1]];
      assert s[|s| - 1] !in t by {
        forall i | 0 <= i < |t|
          ensures t[i] != s[|s| - 1]
        {
          assert t[i] == s[i];
        }
      }
    }
  }

  lemma {:induction false} RepeatCountsTwice<T>(s: seq<T>, i: nat, j: nat)
    requires i < j < |s|
    ensures s[i] == s[j] ==> multiset(s)[s[i]] >= 2
  {
    assert s == s[..i] + [s[i]] + s[i + 1..j] + [s[j]] + s[j + 1..];
  }

  lemma {:induction false} PermutationKeepsDistinct<T>(a: seq<T>, b: seq<T>)
    requires multiset(a) == multiset(b) && NoDuplicates(a)
    ensures NoDuplicates(b)
  {
    CountsOfDistinct(a);
    forall i, j | 0 <= i < j < |b|
      ensures b[i] != b[j]
    {
      RepeatCountsTwice(b, i, j);
    }
  }

  function AxisKey(capacity: string): (k: seq<int>)
  {
    [ChartCapacityNum(capacity)]
  }

  /**
   The capacity axis: every capacity label once, in ascending numeric order,
   labels of equal value in order of first appearance.
   */
  function CapacityAxis(capacities: seq<string>): (axis: seq<string>)
    requires forall c :: c in capacities ==> ParseCapacity(c).Whole?
    ensures forall c :: c in axis <==> c in capacities
    ensures NoDuplicates(axis)
    ensures forall i, j :: 0 <= i < j < |axis| ==> ChartCapacityNum(axis[i]) <= ChartCapacityNum(axis[j])
    ensures forall k :: WithKey(axis, AxisKey, k) == WithKey(Distinct(capacities), AxisKey, k)
  {
    var unique := Distinct(capacities);
    var axis := SortBy(unique, AxisKey);
    PermutationKeepsDistinct(unique, axis);
    SameElements(axis, unique);
    forall i, j | 0 <= i < j < |axis|
      ensures ChartCapacityNum(axis[i]) <= ChartCapacityNum(axis[j])
    {
      assert LexLe([ChartCapacityNum(axis[i])], [ChartCapacityNum(axis[j])]);
      assert [ChartCapacityNum(axis[i])][1..] == [];
    }
    axis
  }

  /**
   The improvement of an ECC type over no ECC at one capacity, in percent of
   the no-ECC failures; 0 when there were none.
   */
  function ImprovementRate(noEccTotal: int, eccTotal: int): (rate: real)
    ensures noEccTotal > 0 ==> rate * (noEccTotal as real) == ((noEccTotal - eccTotal) as real) * 100.0
    ensures noEccTotal <= 0 ==> rate == 0.0
  {
    if noEccTotal > 0 then ((noEccTotal - eccTotal) as real) / (noEccTotal as real) * 100.0 else 0.0
  }

  /**
   With failures to compare against, the rate is positive exactly when the
   ECC type fails less often, 100 exactly when it never fails, and never more
   than 100 for a failure count that is not negative.
   */
  lemma {:induction false} ImprovementRateBounds(noEccTotal: int, eccTotal: int)
    requires noEccTotal > 0
    ensures ImprovementRate(noEccTotal, eccTotal) > 0.0 <==> eccTotal < noEccTotal
    ensures ImprovementRate(noEccTotal, eccTotal) == 0.0 <==> eccTotal == noEccTotal
    ensures ImprovementRate(noEccTotal, eccTotal) == 100.0 <==> eccTotal == 0
    ensures eccTotal >= 0 ==> ImprovementRate(noEccTotal, eccTotal) <= 100.0
  {
    var n, e := noEccTotal as real, eccTotal as real;
    var rate := ImprovementRate(noEccTotal, eccTotal);
    assert rate * n == (n - e) * 100.0;
    assert (rate - 100.0) * n == -e * 100.0;
    SignOfScaled(rate, n);
    SignOfScaled(rate - 100.0, n);
  }

  lemma {:induction false} SignOfScaled(a: real, n: real)
    requires n > 0.0
    ensures a > 0.0 <==> a * n > 0.0
    ensures a == 0.0 <==> a * n == 0.0
  {
  }
}

=== FILE: ecc_totals.dfy ===
/**
 The report's per-ECC totals: for every ECC type seen in the rows, the sums
 of CE, DUE, SDC and total failures over its rows, and how many rows it has.
 */
module EccTotals {
  import opened ErrorStats

  datatype Totals = Totals(ce: int, ue: int, sdc: int, total: int, count: nat)

  const NoRows := Totals(0, 0, 0, 0, 0)

  /** The rows of one ECC type, in their order. */
  function RowsOf(rows: seq<Row>, ecc: string): (sel: seq<Row>)
    ensures |sel| <= |rows|
    ensures forall r :: r in sel <==> r in rows && r.ecc == ecc
  {
    if |rows| == 0 then []
    else
      assert forall r :: r in rows <==> r == rows[0] || r in rows[1..] by {
        assert rows == [rows[0]] + rows[1..];
      }
      (if rows[0].ecc == ecc then [rows[0]] else []) + RowsOf(rows[1..], ecc)
  }

  /** The field-wise sum of a list of rows, with the number of rows summed. */
  function Sum(rows: seq<Row>): (t: Totals)
    ensures t.count == |rows|
  {
    if |rows| == 0 then NoRows
    else
      var rest := Sum(rows[1..]);
      Totals(rows[0].ce + rest.ce, rows[0].ue + rest.ue, rows[0].sdc + rest.sdc,
             rows[0].total + rest.total, rest.count + 1)
  }

  /** One step of the report's loop: the row's counts are added to its type's running sums. */
  function AddRow(t: Totals, r: Row): (sum: Totals)
  {
    Totals(t.ce + r.ce, t.ue + r.ue, t.sdc + r.sdc, t.total + r.total, t.count + 1)
  }

  lemma {:induction false} RowsOfAppend(rows: seq<Row>, r: Row)
    ensures forall e :: RowsOf(rows + [r], e) == RowsOf(rows, e) + (if r.ecc == e then [r] else [])
    decreases |rows|
  {
    if |rows| == 0 {
      assert rows + [r] == [r];
      assert [r][1..] == [];
    } else {
      RowsOfAppend(rows[1..], r);
      assert (rows + [r])[0] == rows[0];
      assert (rows + [r])[1..] == rows[1..] + [r];
    }
  }

  /** Summing row by row from the front, as the loop does, gives the same totals. */
  lemma {:induction false} SumAppend(rows: seq<Row>, r: Row)
    ensures Sum(rows + [r]) == AddRow(Sum(rows), r)
    decreases |rows|
  {
    if |rows| == 0 {
      assert rows + [r] == [r];
      assert [r][1..] == [];
    } else {
      SumAppend(rows[1..], r);
      assert (rows + [r])[0] == rows[0];
      assert (rows + [r])[1..] == rows[1..] + [r];
    }
  }

  /** Sums of balanced rows are balanced: CE + DUE + SDC equals the summed total. */
  lemma {:induction false} SumBalanced(rows: seq<Row>)
    requires forall r :: r in rows ==> Balanced(r)
    ensures Sum(rows).ce + Sum(rows).ue + Sum(rows).sdc == Sum(rows).total
    decreases |rows|
  {
    if |rows| > 0 {
      assert rows[0] in rows;
      assert forall r :: r in rows[1..] ==> r in rows;
      SumBalanced(rows[1..]);
    }
  }

  /** `stats` holds, for exactly the ECC types present in `rows`, the sums over their rows. */
  ghost predicate Aggregates(stats: map<string, Totals>, rows: seq<Row>)
  {
    (forall e :: e in stats <==> RowsOf(rows, e) != [])
    && (forall e :: e in stats ==> stats[e] == Sum(RowsOf(rows, e)))
  }

  /** One pass of the loop body keeps `stats` an aggregate of the rows seen so far. */
  lemma {:induction false} AddRowAggregates(stats: map<string, Totals>, rows: seq<Row>, r: Row)
    requires Aggregates(stats, rows)
    ensures Aggregates(stats[r.ecc := AddRow(if r.ecc in stats then stats[r.ecc] else NoRows, r)], rows + [r])
  {
    var next := stats[r.ecc := AddRow(if r.ecc in stats then stats[r.ecc] else NoRows, r)];
    RowsOfAppend(rows, r);
    forall e
      ensures e in next <==> RowsOf(rows + [r], e) != []
    {
      if e != r.ecc {
        assert RowsOf(rows + [r], e) == RowsOf(rows, e) + [];
      }
    }
    forall e | e in next
      ensures next[e] == Sum(RowsOf(rows + [r], e))
    {
      if e == r.ecc {
        SumAppend(RowsOf(rows, e), r);
        assert RowsOf(rows + [r], e) == RowsOf(rows, e) + [r];
        if r.ecc !in stats {
          assert RowsOf(rows, e) == [];
        }
      } else {
        assert RowsOf(rows + [r], e) == RowsOf(rows, e) + [];
        assert RowsOf(rows, e) + [] == RowsOf(rows, e);
      }
    }
  }

  /** What an aggregate of all the rows says about each ECC type. */
  lemma {:induction false} AggregatesMeaning(stats: map<string, Totals>, rows: seq<Row>)
    requires Aggregates(stats, rows)
    ensures forall e :: e in stats <==> exists r :: r in rows && r.ecc == e
    ensures forall e :: e in stats ==> stats[e].count == |RowsOf(rows, e)| > 0
    ensures (forall r :: r in rows ==> Balanced(r)) ==>
      forall e :: e in stats ==> stats[e].ce + stats[e].ue + stats[e].sdc == stats[e].total
  {
    forall e | e in stats
      ensures exists r :: r in rows && r.ecc == e
    {
      var r := RowsOf(rows, e)[0];
      assert r in RowsOf(rows, e);
    }
    forall e | exists r :: r in rows && r.ecc == e
      ensures e in stats
    {
      var r :| r in rows && r.ecc == e;
      assert r in RowsOf(rows, e);
    }
    if forall r :: r in rows ==> Balanced(r) {
      forall e | e in stats
        ensures stats[e].ce + stats[e].ue + stats[e].sdc == stats[e].total
      {
        SumBalanced(RowsOf(rows, e));
      }
    }
  }

  /**
   The report's aggregation loop: a map from every ECC type present in the
   rows to the sums over that type's rows.
   */
  method AggregateByEcc(rows: seq<Row>) returns (stats: map<string, Totals>)
    ensures forall e :: e in stats <==> exists r :: r in rows && r.ecc == e
    ensures forall e :: e in stats ==> stats[e] == Sum(RowsOf(rows, e))
    ensures forall e :: e in stats ==> stats[e].count == |RowsOf(rows, e)| > 0
    ensures (forall r :: r in rows ==> Balanced(r)) ==>
      forall e :: e in stats ==> stats[e].ce + stats[e].ue + stats[e].sdc == stats[e].total
  {
    stats := map[];
    var i := 0;
    while i < |rows|
      invariant i <= |rows|
      invariant Aggregates(stats, rows[..i])
    {
      var r := rows[i];
      AddRowAggregates(stats, rows[..i], r);
      var current := if r.ecc in stats then stats[r.ecc] else NoRows;
      stats := stats[r.ecc := AddRow(current, r)];
      assert rows[..i + 1] == rows[..i] + [r];
      i := i + 1;
    }
    assert rows[..i] == rows;
    AggregatesMeaning(stats, rows);
  }
}

=== FILE: error_stats.dfy ===
/**
 The log extractor: each log's summary counts are split into three disjoint
 error classes (correctable, detected-uncorrectable, silent data corruption),
 one result row is made per usable log, and the rows are ordered for the
 report by a fixed ECC priority and then by capacity.
 */
module ErrorStats {
  import opened Wrappers
  import opened Text
  import opened Sorting
  import opened LogNames

  /**
   What the `[MODULE0]` summary line of a log yields: the number of trials,
   the number of failed trials, and the two products sims * rate_uncorr
   (every uncorrectable failure) and sims * rate_undet (the undetected ones
   among them), each truncated toward zero by `int()`.
   */
  datatype Summary = Summary(sims: nat, failedSims: nat, totalUe: int, sdc: int)

  /** The counts derived from one summary; `ue` holds the detected-uncorrectable (DUE) count. */
  datatype Stats = Stats(ce: int, ue: int, sdc: int, ueSdc: int, criticalErrorRate: real, total: int)

  /**
   Splits the failed trials into error classes. The split is exact for all
   integers; nothing keeps a class non-negative, and DUE is negative exactly
   when the undetected count exceeds the uncorrectable one.
   */
  function ClassifyFailures(m: Summary): (st: Stats)
    ensures st.total == m.failedSims
    ensures st.ce + st.ue + st.sdc == st.total
    ensures st.sdc == m.sdc && st.ue + st.sdc == m.totalUe
    ensures st.ce == st.total - m.totalUe
    ensures st.ueSdc == m.totalUe
    ensures m.sims > 0 ==> st.criticalErrorRate * (m.sims as real) == st.ueSdc as real
    ensures m.sims == 0 ==> st.criticalErrorRate == 0.0
    ensures st.ue < 0 <==> m.sdc > m.totalUe
  {
    var total := m.failedSims;
    var due := m.totalUe - m.sdc;
    var ce := total - m.totalUe;
    var ueSdc := due + m.sdc;
    var rate := if m.sims > 0 then (ueSdc as real) / (m.sims as real) else 0.0;
    Stats(ce, due, m.sdc, ueSdc, rate, total)
  }

  /** The worked example of a summary line with a million trials. */
  lemma ClassifyFailuresExample()
    ensures var st := ClassifyFailures(Summary(1000000, 112090, 747, 16));
      st.ce == 111343 && st.ue == 731 && st.sdc == 16 && st.ueSdc == 747 && st.total == 112090
      && st.criticalErrorRate == 0.000747
  {
  }

  /** One line of the report and of the CSV table. */
  datatype Row = Row(ecc: string, capacity: string, ce: int, ue: int, sdc: int,
                     ueSdc: int, criticalErrorRate: real, total: int)

  /** The three error classes of a row add up to its failed trials. */
  predicate Balanced(r: Row)
  {
    r.ce + r.ue + r.sdc == r.total
  }

  /** A log file: its path and the summary its content yields, None when the summary line is missing. */
  datatype LogFile = LogFile(path: string, summary: Option<Summary>)

  /** `os.path.basename` on POSIX paths: the text after the last `/`. */
  function Basename(path: string): (b: string)
    ensures |b| <= |path| && path[|path| - |b|..] == b
    ensures forall i :: 0 <= i < |b| ==> b[i] != '/'
    ensures |b| < |path| ==> path[|path| - |b| - 1] == '/'
    decreases |path|
  {
    if |path| == 0 then []
    else if path[|path| - 1] == '/' then []
    else Basename(path[..|path| - 1]) + [path[|path| - 1]]
  }

  /** The row for a log of the given ECC type and capacity whose summary line yields `m`. */
  function RowFrom(ecc: string, capacity: string, m: Summary): (row: Row)
    ensures row.ecc == ecc && row.capacity == capacity
    ensures Balanced(row) && row.total == m.failedSims
    ensures row.sdc == m.sdc && row.ueSdc == m.totalUe && row.ue == m.totalUe - m.sdc
    ensures row.ce == m.failedSims - m.totalUe
    ensures m.sims > 0 ==> row.criticalErrorRate == (row.ueSdc as real) / (m.sims as real)
    ensures m.sims == 0 ==> row.criticalErrorRate == 0.0
  {
    var st := ClassifyFailures(m);
    Row(ecc, capacity, st.ce, st.ue, st.sdc, st.ueSdc, st.criticalErrorRate, st.total)
  }

  /** The row a log file contributes: none when its name does not parse or its summary line is missing. */
  function RowOf(f: LogFile): (r: Option<Row>)
    ensures r.Some? <==> ParseFilename(Basename(f.path)).Some? && f.summary.Some?
    ensures r.Some? ==> r.value == RowFrom(r.value.ecc, r.value.capacity, f.summary.value)
    ensures r.Some? ==> (r.value.ecc, r.value.capacity) == ParseFilename(Basename(f.path)).value
    ensures r.Some? ==> Balanced(r.value) && r.value.total == f.summary.value.failedSims
    ensures r.Some? ==> r.value.sdc == f.summary.value.sdc && r.value.ueSdc == f.summary.value.totalUe
    ensures r.Some? ==> r.value.ue == f.summary.value.totalUe - f.summary.value.sdc
    ensures r.Some? ==> r.value.ce == f.summary.value.failedSims - f.summary.value.totalUe
    ensures r.Some? && f.summary.value.sims > 0 ==>
      r.value.criticalErrorRate == (r.value.ueSdc as real) / (f.summary.value.sims as real)
    ensures r.Some? && f.summary.value.sims == 0 ==> r.value.criticalErrorRate == 0.0
  {
    var config := ParseFilename(Basename(f.path));
    if config.None? || f.summary.None? then None
    else Some(RowFrom(config.value.0, config.value.1, f.summary.value))
  }

  /** The rows of the logs, in the order the logs are visited, skipping the unusable ones. */
  function CollectRows(files: seq<LogFile>): (rows: seq<Row>)
    ensures |rows| <= |files|
  {
    FilterMap(files, RowOf)
  }

  /** A row is collected exactly when some log yields it, and every collected row is balanced. */
  lemma {:induction false} CollectRowsSpec(files: seq<LogFile>)
    ensures forall r :: r in CollectRows(files) <==> exists f :: f in files && RowOf(f) == Some(r)
    ensures forall r :: r in CollectRows(files) ==> Balanced(r)
  {
    FilterMapMembers(files, RowOf);
  }

  /** The logs are visited in ascending path order, as Python compares strings. */
  function PathKey(f: LogFile): (k: seq<int>)
  {
    CodePoints(f.path)
  }

  function VisitOrder(files: seq<LogFile>): (visited: seq<LogFile>)
    ensures multiset(visited) == multiset(files)
    ensures forall i, j :: 0 <= i < j < |visited| ==>
      StrLess(visited[i].path, visited[j].path) || visited[i].path == visited[j].path
  {
    var visited := SortBy(files, PathKey);
    forall i, j | 0 <= i < j < |visited|
      ensures StrLess(visited[i].path, visited[j].path) || visited[i].path == visited[j].path
    {
      CodePointsOrder(visited[i].path, visited[j].path);
    }
    visited
  }

  /** The report's ECC order: No ECC, SECDED, ChipKill, then every other type. */
  function EccPriority(ecc: string): (p: nat)
    ensures p == 0 <==> ecc == "No ECC"
    ensures p == 1 <==> ecc == "SECDED"
    ensures p == 2 <==> ecc == "ChipKill"
    ensures p == 3 <==> ecc != "No ECC" && ecc != "SECDED" && ecc != "ChipKill"
  {
    if ecc == "No ECC" then 0
    else if ecc == "SECDED" then 1
    else if ecc == "ChipKill" then 2
    else 3
  }

  /**
   The report's capacity order: the number left once every `GB` is removed,
   when that is a plain numeral; 0 otherwise.
   */
  function ReportCapacityNumber(capacity: string): (n: nat)
    ensures !Contains(capacity, LabelUnit) ==> n == (if |capacity| > 0 && IsDigits(capacity) then DigitsValue(capacity) else 0)
  {
    var num := RemoveAll(capacity, LabelUnit);
    if |num| > 0 && IsDigits(num) then DigitsValue(num) else 0
  }

  /** A label `<digits>GB` sorts by the value of its digits. */
  lemma {:induction false} ReportCapacityOfNumeral(d: string)
    requires |d| > 0 && IsDigits(d)
    ensures ReportCapacityNumber(d + LabelUnit) == DigitsValue(d)
  {
    RemoveSuffixOfDigits(d, LabelUnit);
  }

  function ReportKey(r: Row): (k: seq<int>)
  {
    [EccPriority(r.ecc), ReportCapacityNumber(r.capacity)]
  }

  /** Rows before `b` in the report: lower ECC priority, or the same priority and a capacity no larger. */
  predicate ReportBefore(a: Row, b: Row)
  {
    EccPriority(a.ecc) < EccPriority(b.ecc)
    || (EccPriority(a.ecc) == EccPriority(b.ecc) && ReportCapacityNumber(a.capacity) <= ReportCapacityNumber(b.capacity))
  }

  /**
   The report order: a permutation of the rows, ordered by ECC priority and
   then by capacity, that keeps rows with equal keys in their original order.
   */
  function SortResults(rows: seq<Row>): (sorted: seq<Row>)
    ensures multiset(sorted) == multiset(rows)
    ensures forall i, j :: 0 <= i < j < |sorted| ==> ReportBefore(sorted[i], sorted[j])
    ensures forall k :: WithKey(sorted, ReportKey, k) == WithKey(rows, ReportKey, k)
  {
    var sorted := SortBy(rows, ReportKey);
    forall i, j | 0 <= i < j < |sorted|
      ensures ReportBefore(sorted[i], sorted[j])
    {
      var a, b := sorted[i], sorted[j];
      PairOrder(EccPriority(a.ecc), ReportCapacityNumber(a.capacity), EccPriority(b.ecc), ReportCapacityNumber(b.capacity));
    }
    sorted
  }

  /**
   The report lists every No ECC row first, then the SECDED rows, then the
   ChipKill rows, and the rows of other ECC types last.
   */
  lemma {:induction false} ReportEccOrder(rows: seq<Row>)
    ensures forall i, j :: 0 <= i < j < |SortResults(rows)| && SortResults(rows)[j].ecc == "No ECC" ==>
      SortResults(rows)[i].ecc == "No ECC"
    ensures forall i, j :: 0 <= i < j < |SortResults(rows)| && SortResults(rows)[j].ecc == "SECDED" ==>
      SortResults(rows)[i].ecc == "No ECC" || SortResults(rows)[i].ecc == "SECDED"
    ensures forall i, j :: 0 <= i < j < |SortResults(rows)| && SortResults(rows)[j].ecc == "ChipKill" ==>
      SortResults(rows)[i].ecc == "No ECC" || SortResults(rows)[i].ecc == "SECDED" || SortResults(rows)[i].ecc == "ChipKill"
  {
    var t := SortResults(rows);
    forall i, j | 0 <= i < j < |t|
      ensures EccPriority(t[i].ecc) <= EccPriority(t[j].ecc)
    {
      assert ReportBefore(t[i], t[j]);
    }
  }

  /**
   The whole extraction: visit the logs in path order, keep the usable ones,
   and order their rows for the report.
   */
  function Tabulate(files: seq<LogFile>): (table: seq<Row>)
    ensures forall r :: r in table <==> exists f :: f in files && RowOf(f) == Some(r)
    ensures forall r :: r in table ==> Balanced(r)
    ensures forall i, j :: 0 <= i < j < |table| ==> ReportBefore(table[i], table[j])
    ensures multiset(table) == multiset(CollectRows(VisitOrder(files)))
    ensures forall k :: WithKey(table, ReportKey, k) == WithKey(CollectRows(VisitOrder(files)), ReportKey, k)
  {
    var visited := VisitOrder(files);
    var rows := CollectRows(visited);
    CollectRowsSpec(visited);
    var table := SortResults(rows);
    SameElements(table, rows);
    SameElements(visited, files);
    table
  }

  lemma {:induction false} SameElements<T>(a: seq<T>, b: seq<T>)
    requires multiset(a) == multiset(b)
    ensures forall x :: x in a <==> x in b
  {
    forall x
      ensures x in a <==> x in b
    {
      assert x in a <==> x in multiset(a);
      assert x in b <==> x in multiset(b);
    }
  }

  /** A log whose summary line is missing contributes no row, whatever its name. */
  lemma {:induction false} MissingSummarySkipped(before: seq<LogFile>, f: LogFile, after: seq<LogFile>)
    requires f.summary.None?
    ensures CollectRows(before + [f] + after) == CollectRows(before + after)
  {
    FilterMapSkip(before, f, after, RowOf);
  }

  /** A usable log contributes exactly its own row, between the rows of the logs before and after it. */
  lemma {:induction false} CollectRowsKeepsRow(before: seq<LogFile>, f: LogFile, after: seq<LogFile>)
    requires RowOf(f).Some?
    ensures CollectRows(before + [f] + after) == CollectRows(before) + [RowOf(f).value] + CollectRows(after)
  {
    FilterMapKeep(before, f, after, RowOf);
  }

  /** A log whose name does not follow the convention contributes no row, whatever its content. */
  lemma {:induction false} UnparsableNameSkipped(before: seq<LogFile>, f: LogFile, after: seq<LogFile>)
    requires ParseFilename(Basename(f.path)).None?
    ensures CollectRows(before + [f] + after) == CollectRows(before + after)
  {
    FilterMapSkip(before, f, after, RowOf);
  }
}

=== FILE: log_names.dfy ===
/**
 The log-file naming convention `dimm_<ecc>[_<n>gb]_log.txt` and the parser
 that turns a file name into an (ECC type, capacity) pair.

 The name is lower-cased and matched, anchored at its start only, against the
 regular expression `dimm_([^_]+)(?:_(\d+gb))?_log\.txt`. `MatchLogName` is a
 direct matcher for that expression and `MatchesWith` says declaratively which
 group values the expression admits; the two are proved to agree.
 */
module LogNames {
  import opened Wrappers
  import opened Text

  const NamePrefix := "dimm_"
  const NameSuffix := "_log.txt"
  /** The capacity unit as it appears in a lower-cased log name. */
  const CapacityUnit := "gb"
  /** The capacity unit as it appears in a capacity label (`32GB`). */
  const LabelUnit := "GB"
  /** The capacity of a log whose name carries none. */
  const DefaultCapacity := "2GB"

  predicate IsTokenChar(c: char) { c != '_' }

  /** The first index at or after `i` whose character is not in the span, or the end of `s`. */
  function SpanEnd(s: string, i: nat, inSpan: char -> bool): (j: nat)
    requires i <= |s|
    ensures i <= j <= |s|
    ensures forall k :: i <= k < j ==> inSpan(s[k])
    ensures j < |s| ==> !inSpan(s[j])
    decreases |s| - i
  {
    if i == |s| || !inSpan(s[i]) then i else SpanEnd(s, i + 1, inSpan)
  }

  /** A value of the group `([^_]+)`. */
  predicate IsToken(t: string)
  {
    |t| > 0 && forall i :: 0 <= i < |t| ==> IsTokenChar(t[i])
  }

  /** A value of the group `(\d+gb)`. */
  predicate IsCapacityGroup(c: string)
  {
    |c| > |CapacityUnit| && c[|c| - |CapacityUnit|..] == CapacityUnit
    && IsDigits(c[..|c| - |CapacityUnit|])
  }

  /** The text the expression matches when its groups take the values `t` and `g`. */
  function Pattern(t: string, g: Option<string>): (p: string)
  {
    NamePrefix + t + (if g.Some? then "_" + g.value else "") + NameSuffix
  }

  /** `re.match` can match a prefix of `s` with the groups set to `t` and `g`. */
  predicate MatchesWith(s: string, t: string, g: Option<string>)
  {
    IsToken(t) && (g.Some? ==> IsCapacityGroup(g.value)) && Pattern(t, g) <= s
  }

  /**
   The match `re.match` returns: the token is the longest run without `_`
   (the character after it must be `_`, so backtracking never shortens it),
   and the optional capacity group is tried before it is skipped.
   */
  function MatchLogName(s: string): (m: Option<(string, Option<string>)>)
    ensures !(NamePrefix <= s) ==> m.None?
    ensures m.Some? ==> IsToken(m.value.0) && NamePrefix + m.value.0 <= s
  {
    if !(NamePrefix <= s) then None
    else
      var p := SpanEnd(s, |NamePrefix|, IsTokenChar);
      if p == |NamePrefix| || p == |s| then None
      else
        var q := SpanEnd(s, p + 1, IsDigit);
        if q > p + 1 && CapacityUnit + NameSuffix <= s[q..] then
          Some((s[|NamePrefix|..p], Some(s[p + 1..q + |CapacityUnit|])))
        else if NameSuffix <= s[p..] then
          Some((s[|NamePrefix|..p], None))
        else None
  }

  /** A prefix made of two parts: each part sits at its place in `s`. */
  lemma {:induction false} PrefixParts(s: string, a: string, b: string)
    requires a + b <= s
    ensures a <= s && b <= s[|a|..] && s[|a|..|a| + |b|] == b
  {
    assert a + b == s[..|a| + |b|];
    assert a == (a + b)[..|a|];
    assert b == (a + b)[|a|..];
  }

  lemma {:induction false} SliceSplit(s: string, a: nat, b: nat, c: nat)
    requires a <= b <= c <= |s|
    ensures s[a..c] == s[a..b] + s[b..c]
  {
  }

  /** The span from `i` ends at `j` when every character before `j` is in it and the one at `j` is not. */
  lemma {:induction false} SpanEndAt(s: string, i: nat, j: nat, inSpan: char -> bool)
    requires i <= j <= |s|
    requires forall k :: i <= k < j ==> inSpan(s[k])
    requires j < |s| ==> !inSpan(s[j])
    ensures SpanEnd(s, i, inSpan) == j
    decreases j - i
  {
    if i < j {
      SpanEndAt(s, i + 1, j, inSpan);
    }
  }

  /** A slice equal to `t` consists of characters `t` consists of. */
  lemma {:induction false} RunInSpan(s: string, n: nat, t: string, inSpan: char -> bool)
    requires n + |t| <= |s| && s[n..n + |t|] == t
    requires forall i :: 0 <= i < |t| ==> inSpan(t[i])
    ensures forall k :: n <= k < n + |t| ==> inSpan(s[k])
  {
    forall k | n <= k < n + |t|
      ensures inSpan(s[k])
    {
      assert s[k] == t[k - n];
    }
  }

  /** Four adjacent slices of `s`, starting at its beginning, form a prefix of `s`. */
  lemma {:induction false} PatternFromSlices(s: string, t: string, mid: string, p: nat, e: nat)
    requires |NamePrefix| <= p <= e && e + |NameSuffix| <= |s|
    requires s[..|NamePrefix|] == NamePrefix && s[|NamePrefix|..p] == t
    requires s[p..e] == mid && s[e..e + |NameSuffix|] == NameSuffix
    ensures NamePrefix + t + mid + NameSuffix <= s
  {
    assert NamePrefix + t + mid + NameSuffix == s[..e + |NameSuffix|];
  }

  /** The characters between `|NamePrefix|` and `p` form a token when `p` ends the span of token characters. */
  lemma {:induction false} TokenBeforeSpanEnd(s: string, p: nat)
    requires |NamePrefix| < p <= |s| && p == SpanEnd(s, |NamePrefix|, IsTokenChar)
    ensures IsToken(s[|NamePrefix|..p])
  {
    var t := s[|NamePrefix|..p];
    forall i | 0 <= i < |t|
      ensures IsTokenChar(t[i])
    {
      assert t[i] == s[|NamePrefix| + i];
    }
  }

  /** Every match the matcher reports is one the expression admits. */
  lemma {:induction false} MatchLogNameSound(s: string)
    requires MatchLogName(s).Some?
    ensures MatchesWith(s, MatchLogName(s).value.0, MatchLogName(s).value.1)
  {
    var p := SpanEnd(s, |NamePrefix|, IsTokenChar);
    assert |NamePrefix| < p < |s|;
    var q := SpanEnd(s, p + 1, IsDigit);
    if q > p + 1 && CapacityUnit + NameSuffix <= s[q..] {
      assert MatchLogName(s).value == (s[|NamePrefix|..p], Some(s[p + 1..q + |CapacityUnit|]));
      SoundWithCapacity(s, p, q);
    } else {
      assert NameSuffix <= s[p..];
      assert MatchLogName(s).value == (s[|NamePrefix|..p], None);
      SoundWithoutCapacity(s, p);
    }
  }

  lemma {:induction false} SoundWithCapacity(s: string, p: nat, q: nat)
    requires NamePrefix <= s && p == SpanEnd(s, |NamePrefix|, IsTokenChar)
    requires |NamePrefix| < p < |s| && q == SpanEnd(s, p + 1, IsDigit)
    requires q > p + 1 && CapacityUnit + NameSuffix <= s[q..]
    ensures MatchesWith(s, s[|NamePrefix|..p], Some(s[p + 1..q + |CapacityUnit|]))
  {
    TokenBeforeSpanEnd(s, p);
    UnitAndSuffixAt(s, q);
    CapacityGroupAt(s, p + 1, q);
    PatternWithCapacityAt(s, p, q);
  }

  /** The text up to `gb_log.txt` spells the pattern with the slices as its groups. */
  lemma {:induction false} PatternWithCapacityAt(s: string, p: nat, q: nat)
    requires NamePrefix <= s && |NamePrefix| <= p < q && q + |CapacityUnit| + |NameSuffix| <= |s|
    requires s[p] == '_'
    requires s[q + |CapacityUnit|..q + |CapacityUnit| + |NameSuffix|] == NameSuffix
    ensures Pattern(s[|NamePrefix|..p], Some(s[p + 1..q + |CapacityUnit|])) <= s
  {
    var t := s[|NamePrefix|..p];
    var e := q + |CapacityUnit|;
    var c := s[p + 1..e];
    assert s[p..e] == "_" + c by {
      SliceSplit(s, p, p + 1, e);
      assert s[p..p + 1] == [s[p]] == "_";
    }
    assert s[..|NamePrefix|] == NamePrefix;
    PatternFromSlices(s, t, "_" + c, p, e);
    assert Pattern(t, Some(c)) == NamePrefix + t + ("_" + c) + NameSuffix;
  }

  /** Where `gb_log.txt` sits when it starts at `q`. */
  lemma {:induction false} UnitAndSuffixAt(s: string, q: nat)
    requires q <= |s| && CapacityUnit + NameSuffix <= s[q..]
    ensures q + |CapacityUnit| + |NameSuffix| <= |s|
    ensures s[q..q + |CapacityUnit|] == CapacityUnit
    ensures s[q + |CapacityUnit|..q + |CapacityUnit| + |NameSuffix|] == NameSuffix
  {
    var e := q + |CapacityUnit|;
    PrefixParts(s[q..], CapacityUnit, NameSuffix);
    assert s[q..][..|CapacityUnit|] == s[q..e];
    assert s[q..][|CapacityUnit|..|CapacityUnit| + |NameSuffix|] == s[e..e + |NameSuffix|];
  }

  /** A non-empty digit span followed by `gb` is a value of the capacity group. */
  lemma {:induction false} CapacityGroupAt(s: string, i: nat, q: nat)
    requires i < q && q + |CapacityUnit| <= |s| && q == SpanEnd(s, i, IsDigit)
    requires s[q..q + |CapacityUnit|] == CapacityUnit
    ensures IsCapacityGroup(s[i..q + |CapacityUnit|])
  {
    var d := s[i..q];
    var c := s[i..q + |CapacityUnit|];
    SliceSplit(s, i, q, q + |CapacityUnit|);
    assert IsDigits(d) by {
      forall k | 0 <= k < |d|
        ensures IsDigit(d[k])
      {
        assert d[k] == s[i + k];
      }
    }
    assert c == d + CapacityUnit;
    assert c[..|c| - |CapacityUnit|] == d;
    assert c[|c| - |CapacityUnit|..] == CapacityUnit;
  }

  lemma {:induction false} SoundWithoutCapacity(s: string, p: nat)
    requires NamePrefix <= s && p == SpanEnd(s, |NamePrefix|, IsTokenChar)
    requires |NamePrefix| < p < |s| && NameSuffix <= s[p..]
    ensures MatchesWith(s, s[|NamePrefix|..p], None)
  {
    TokenBeforeSpanEnd(s, p);
    PatternWithoutCapacityAt(s, p);
  }

  /** The text up to `_log.txt` spells the pattern without the capacity group. */
  lemma {:induction false} PatternWithoutCapacityAt(s: string, p: nat)
    requires NamePrefix <= s && |NamePrefix| <= p <= |s| && NameSuffix <= s[p..]
    ensures Pattern(s[|NamePrefix|..p], None) <= s
  {
    var t := s[|NamePrefix|..p];
    assert s[..|NamePrefix|] == NamePrefix;
    assert s[p..p + |NameSuffix|] == NameSuffix by {
      assert s[p..][..|NameSuffix|] == s[p..p + |NameSuffix|];
    }
    assert s[p..p] == "";
    PatternFromSlices(s, t, "", p, p);
    assert Pattern(t, None) == NamePrefix + t + "" + NameSuffix;
  }

  /** Whatever the expression admits, the matcher finds: the same token, and the capacity group when there is one. */
  lemma {:induction false} MatchLogNameComplete(s: string, t: string, g: Option<string>)
    requires MatchesWith(s, t, g)
    ensures MatchLogName(s).Some? && MatchLogName(s).value.0 == t
    ensures g.Some? ==> MatchLogName(s).value.1 == g
  {
    var p := |NamePrefix| + |t|;
    TokenSlices(s, t, g);
    TokenEnd(s, t, g);
    if g.Some? {
      var c := g.value;
      CompleteCapacity(s, t, c, c[..|c| - |CapacityUnit|], p);
    } else {
      assert NameSuffix <= s[p..] by {
        assert Pattern(t, g) == (NamePrefix + t) + NameSuffix;
        PrefixParts(s, NamePrefix + t, NameSuffix);
      }
    }
  }

  /** Where the parts of a three-part prefix sit in `s`. */
  lemma {:induction false} RunSlices(s: string, head: string, run: string, rest: string)
    requires (head + run) + rest <= s && |rest| > 0
    ensures head <= s && |head| + |run| < |s|
    ensures s[|head|..|head| + |run|] == run && rest <= s[|head| + |run|..]
    ensures s[|head| + |run|] == rest[0]
  {
    PrefixParts(s, head + run, rest);
    PrefixParts(s, head, run);
    assert s[|head| + |run|..][0] == rest[0];
  }

  /** A run of characters in the span followed by one outside it is exactly the span the matcher takes. */
  lemma {:induction false} RunSpan(s: string, head: string, run: string, rest: string, inSpan: char -> bool)
    requires (head + run) + rest <= s
    requires forall i :: 0 <= i < |run| ==> inSpan(run[i])
    requires |rest| > 0 && !inSpan(rest[0])
    ensures SpanEnd(s, |head|, inSpan) == |head| + |run|
  {
    RunSlices(s, head, run, rest);
    SpanAfterRun(s, |head|, run, inSpan);
  }

  lemma {:induction false} SpanAfterRun(s: string, n: nat, run: string, inSpan: char -> bool)
    requires n + |run| < |s| && s[n..n + |run|] == run
    requires forall i :: 0 <= i < |run| ==> inSpan(run[i])
    requires !inSpan(s[n + |run|])
    ensures SpanEnd(s, n, inSpan) == n + |run|
  {
    RunInSpan(s, n, run, inSpan);
    SpanEndAt(s, n, n + |run|, inSpan);
  }

  /** Where the token of an admitted match sits: right after the prefix, and followed by a `_`. */
  lemma {:induction false} TokenSlices(s: string, t: string, g: Option<string>)
    requires Pattern(t, g) <= s
    ensures NamePrefix <= s && |NamePrefix| + |t| < |s|
    ensures s[|NamePrefix|..|NamePrefix| + |t|] == t
  {
    var rest := (if g.Some? then "_" + g.value else "") + NameSuffix;
    assert Pattern(t, g) == (NamePrefix + t) + rest;
    RunSlices(s, NamePrefix, t, rest);
  }

  /** The token of an admitted match is the longest run without `_` after the prefix. */
  lemma {:induction false} TokenEnd(s: string, t: string, g: Option<string>)
    requires MatchesWith(s, t, g)
    ensures SpanEnd(s, |NamePrefix|, IsTokenChar) == |NamePrefix| + |t|
  {
    var rest := (if g.Some? then "_" + g.value else "") + NameSuffix;
    assert rest[0] == '_';
    assert Pattern(t, g) == (NamePrefix + t) + rest;
    RunSpan(s, NamePrefix, t, rest, IsTokenChar);
  }

  /** The capacity part of an admitted match: a digit run closed by `gb_log.txt`. */
  lemma {:induction false} CompleteCapacity(s: string, t: string, c: string, d: string, p: nat)
    requires MatchesWith(s, t, Some(c)) && d == c[..|c| - |CapacityUnit|]
    requires p == |NamePrefix| + |t|
    ensures p + 1 + |d| + |CapacityUnit| + |NameSuffix| <= |s|
    ensures SpanEnd(s, p + 1, IsDigit) == p + 1 + |d|
    ensures CapacityUnit + NameSuffix <= s[p + 1 + |d|..]
    ensures s[p + 1..p + 1 + |d| + |CapacityUnit|] == c
  {
    var head := NamePrefix + t + "_";
    var w := CapacityUnit + NameSuffix;
    assert c == d + CapacityUnit by {
      assert c == c[..|c| - |CapacityUnit|] + c[|c| - |CapacityUnit|..];
    }
    assert Pattern(t, Some(c)) == (head + d) + w;
    RunSlices(s, head, d, w);
    RunSpan(s, head, d, w, IsDigit);
    CapacityAfterDigits(s, |head|, d, c);
  }

  lemma {:induction false} CapacityAfterDigits(s: string, i: nat, d: string, c: string)
    requires i + |d| <= |s| && s[i..i + |d|] == d
    requires c == d + CapacityUnit && CapacityUnit + NameSuffix <= s[i + |d|..]
    ensures s[i..i + |c|] == c
  {
    var q := i + |d|;
    PrefixParts(s[q..], CapacityUnit, NameSuffix);
    assert s[q..q + |CapacityUnit|] == s[q..][..|CapacityUnit|];
    SliceSplit(s, i, q, i + |c|);
  }

  /**
   The matcher returns exactly the groups `re.match` reports: an admitted match,
   without the capacity group only when no match with that group exists.
   */
  lemma {:induction false} MatchLogNameExact(s: string, t: string, g: Option<string>)
    ensures MatchLogName(s) == Some((t, g))
        <==> MatchesWith(s, t, g) && (g.None? ==> forall c :: !MatchesWith(s, t, Some(c)))
  {
    if MatchLogName(s) == Some((t, g)) {
      MatchLogNameSound(s);
      if g.None? {
        forall c | MatchesWith(s, t, Some(c))
          ensures false
        {
          MatchLogNameComplete(s, t, Some(c));
        }
      }
    }
    if MatchesWith(s, t, g) && (g.None? ==> forall c :: !MatchesWith(s, t, Some(c))) {
      MatchLogNameComplete(s, t, g);
      if g.None? && MatchLogName(s).value.1.Some? {
        MatchLogNameSound(s);
        assert MatchesWith(s, t, MatchLogName(s).value.1);
      }
    }
  }

  /** The matcher fails exactly when the expression admits no match. */
  lemma {:induction false} MatchLogNameFails(s: string)
    ensures MatchLogName(s).None? <==> forall t, g :: !MatchesWith(s, t, g)
  {
    if MatchLogName(s).Some? {
      MatchLogNameSound(s);
    } else {
      forall t, g | MatchesWith(s, t, g)
        ensures false
      {
        MatchLogNameComplete(s, t, g);
      }
    }
  }

  /** The renaming of upper-cased ECC tokens; any other token is kept as it is. */
  function NormalizeEcc(u: string): (r: string)
    ensures u == "CHIPKILL" ==> r == "ChipKill"
    ensures u == "NONE" ==> r == "No ECC"
    ensures u != "CHIPKILL" && u != "NONE" ==> r == u
  {
    if u == "SECDED" then "SECDED"
    else if u == "CHIPKILL" then "ChipKill"
    else if u == "NONE" then "No ECC"
    else u
  }

  /** The (ECC type, capacity) pair a log-file name encodes, or None when the name does not follow the convention. */
  function ParseFilename(name: string): (r: Option<(string, string)>)
    ensures r.None? <==> MatchLogName(Lower(name)).None?
    ensures r.Some? ==> |r.value.0| > 0
  {
    match MatchLogName(Lower(name))
    case None => None
    case Some((t, g)) =>
      Some((NormalizeEcc(Upper(t)), if g.Some? then Upper(g.value) else DefaultCapacity))
  }

  lemma {:induction false} UpperOfCapacity(d: string)
    requires IsDigits(d)
    ensures Upper(d + CapacityUnit) == d + LabelUnit
  {
    var u := Upper(d + CapacityUnit);
    forall i | 0 <= i < |u|
      ensures u[i] == (d + LabelUnit)[i]
    {
      if i < |d| {
        assert (d + CapacityUnit)[i] == d[i];
      }
    }
  }

  /** A name whose lower-cased form reads `dimm_<token>_<n>gb_log.txt…` yields the normalised token and `<n>GB`. */
  lemma {:induction false} ParseFilenameWithCapacity(name: string, t: string, d: string, rest: string)
    requires Lower(name) == NamePrefix + t + "_" + d + CapacityUnit + NameSuffix + rest
    requires IsToken(t) && IsDigits(d) && |d| > 0
    ensures ParseFilename(name) == Some((NormalizeEcc(Upper(t)), d + LabelUnit))
  {
    var s := Lower(name);
    var c := d + CapacityUnit;
    assert c[..|c| - |LabelUnit|] == d;
    assert IsCapacityGroup(c);
    assert Pattern(t, Some(c)) + rest == s;
    MatchLogNameComplete(s, t, Some(c));
    UpperOfCapacity(d);
  }

  /** A name whose lower-cased form reads `dimm_<token>_log.txt…` yields the normalised token and the default capacity. */
  lemma {:induction false} ParseFilenameDefaultCapacity(name: string, t: string, rest: string)
    requires Lower(name) == NamePrefix + t + NameSuffix + rest
    requires IsToken(t)
    ensures ParseFilename(name) == Some((NormalizeEcc(Upper(t)), DefaultCapacity))
  {
    var s := Lower(name);
    assert Pattern(t, None) + rest == s;
    assert MatchesWith(s, t, None);
    forall c
      ensures !MatchesWith(s, t, Some(c))
    {
      NoCapacityAfterLog(s, t, c);
    }
    MatchLogNameExact(s, t, None);
  }

  /** A capacity group starts with a digit, so it cannot sit where `_log.txt` does. */
  lemma {:induction false} NoCapacityAfterLog(s: string, t: string, c: string)
    requires MatchesWith(s, t, None)
    ensures !MatchesWith(s, t, Some(c))
  {
    var k := |NamePrefix| + |t| + 1;
    var pat := Pattern(t, None);
    assert s[k] == NameSuffix[1] by {
      assert s[..|pat|] == pat;
      assert pat == (NamePrefix + t) + NameSuffix;
      assert s[k] == pat[k];
    }
    if MatchesWith(s, t, Some(c)) {
      CompleteCapacity(s, t, c, c[..|c| - |LabelUnit|], k - 1);
      assert false;
    }
  }

  /** A name is rejected exactly when its lower-cased form admits no match of the expression. */
  lemma {:induction false} ParseFilenameRejects(name: string)
    ensures ParseFilename(name).None? <==> forall t, g :: !MatchesWith(Lower(name), t, g)
  {
    MatchLogNameFails(Lower(name));
    assert ParseFilename(name).None? <==> MatchLogName(Lower(name)).None?;
  }

  /** A capacity label as the parser writes it: a decimal numeral followed by `GB`. */
  predicate IsCapacityLabel(c: string)
  {
    |c| > |LabelUnit| && c[|c| - |LabelUnit|..] == LabelUnit && IsDigits(c[..|c| - |LabelUnit|])
  }

  /** A token matched in a lower-cased name is itself lower-case. */
  lemma {:induction false} MatchedTokenIsLowered(name: string, t: string, g: Option<string>)
    requires Pattern(t, g) <= Lower(name)
    ensures IsLowered(t)
  {
    var s := Lower(name);
    var pat := Pattern(t, g);
    assert s[..|pat|] == pat;
    forall i | 0 <= i < |t|
      ensures !IsUpperAscii(t[i])
    {
      assert t[i] == pat[|NamePrefix| + i] == s[|NamePrefix| + i];
    }
  }

  /** Upper-casing a value of `(\d+gb)` gives a capacity label. */
  lemma {:induction false} CapacityGroupLabel(c: string)
    requires IsCapacityGroup(c)
    ensures IsCapacityLabel(Upper(c))
  {
    var d := c[..|c| - |LabelUnit|];
    assert c == d + CapacityUnit;
    UpperOfCapacity(d);
    var l := d + LabelUnit;
    assert l[..|l| - |LabelUnit|] == d;
  }

  /** The ECC label of a parsed name comes from a lower-case token of the name, and the capacity is always a label. */
  lemma {:induction false} ParseFilenameLabels(name: string)
    requires ParseFilename(name).Some?
    ensures exists t :: IsToken(t) && IsLowered(t) && ParseFilename(name).value.0 == NormalizeEcc(Upper(t))
    ensures IsCapacityLabel(ParseFilename(name).value.1)
  {
    var s := Lower(name);
    MatchLogNameSound(s);
    var (t, g) := MatchLogName(s).value;
    MatchedTokenIsLowered(name, t, g);
    if g.Some? {
      CapacityGroupLabel(g.value);
    } else {
      assert IsDigits(DefaultCapacity[..1]);
    }
  }

  lemma UpperOfKnownTokens()
    ensures Upper("chipkill") == "CHIPKILL"
    ensures Upper("none") == "NONE"
    ensures Upper("secded") == "SECDED"
  {
    var u := Upper("chipkill");
    assert forall i :: 0 <= i < 8 ==> u[i] == "CHIPKILL"[i];
    u := Upper("none");
    assert forall i :: 0 <= i < 4 ==> u[i] == "NONE"[i];
    u := Upper("secded");
    assert forall i :: 0 <= i < 6 ==> u[i] == "SECDED"[i];
  }

  /** ECC normalisation on a lower-case token: `chipkill` and `none` are renamed, every other token (`secded` among them) is upper-cased. */
  lemma {:induction false} EccLabelCases(t: string)
    requires IsLowered(t)
    ensures NormalizeEcc(Upper(t))
         == if t == "chipkill" then "ChipKill" else if t == "none" then "No ECC" else Upper(t)
  {
    UpperOfKnownTokens();
    if Upper(t) == "CHIPKILL" {
      KnownTokenFromUpper(t, "chipkill");
    } else if Upper(t) == "NONE" {
      KnownTokenFromUpper(t, "none");
    }
  }

  lemma {:induction false} KnownTokenFromUpper(t: string, w: string)
    requires IsLowered(t) && Upper(t) == Upper(w)
    requires w == "chipkill" || w == "none"
    ensures t == w
  {
    assert IsLowered(w);
    UpperInjective(t, w);
  }

  /** An upper-cased string holds no lower-case letter, so it is never one of the renamed labels. */
  lemma {:induction false} UpperIsNotRenamed(t: string)
    ensures Upper(t) != "ChipKill" && Upper(t) != "No ECC"
  {
    if |t| > 1 {
      assert !IsLowerAscii(Upper(t)[1]);
      assert IsLowerAscii("ChipKill"[1]) && IsLowerAscii("No ECC"[1]);
    }
  }

  /**
   Under the ASCII case mapping, distinct lower-case tokens give distinct ECC
   labels, so grouping rows by label groups them by token.
   */
  lemma {:induction false} EccLabelInjective(t1: string, t2: string)
    requires IsLowered(t1) && IsLowered(t2)
    requires NormalizeEcc(Upper(t1)) == NormalizeEcc(Upper(t2))
    ensures t1 == t2
  {
    EccLabelCases(t1);
    EccLabelCases(t2);
    UpperIsNotRenamed(t1);
    UpperIsNotRenamed(t2);
    if t1 != "chipkill" && t1 != "none" && t2 != "chipkill" && t2 != "none" {
      UpperInjective(t1, t2);
    }
  }

  /** The example of the parser's own documentation: `dimm_secded_32gb_log.txt` gives ("SECDED", "32GB"). */
  lemma {:induction false} ParseFilenameExample(name: string)
    requires name == "dimm_secded_32gb_log.txt"
    ensures ParseFilename(name) == Some(("SECDED", "32GB"))
  {
    ExampleNameParts(name);
    ExampleGroups();
    ParseFilenameWithCapacity(name, "secded", "32", "");
  }

  lemma {:induction false} ExampleNameParts(name: string)
    requires name == "dimm_secded_32gb_log.txt"
    ensures Lower(name) == NamePrefix + "secded" + "_" + "32" + CapacityUnit + NameSuffix + ""
  {
    assert IsLowered(name);
    LowerOfLowered(name);
  }

  lemma ExampleGroups()
    ensures IsToken("secded") && IsDigits("32")
    ensures "32" + "GB" == "32GB" && NormalizeEcc(Upper("secded")) == "SECDED"
  {
    UpperOfKnownTokens();
  }
}

=== FILE: sorting.dfy ===
/**
 Python's `list.sort(key=...)` and `sorted(..., key=...)`: a stable sort by a key.
 Keys are integer sequences compared lexicographically, which is how Python
 compares the tuples (and, through their code points, the strings) the scripts
 use as keys.
 */
module Sorting {
  import opened Text

  /** Lexicographic order on integer sequences; a proper prefix comes first. */
  predicate LexLe(a: seq<int>, b: seq<int>)
  {
    if |a| == 0 then true
    else if |b| == 0 then false
    else if a[0] != b[0] then a[0] < b[0]
    else LexLe(a[1..], b[1..])
  }

  lemma {:induction false} LexLeReflexive(a: seq<int>)
    ensures LexLe(a, a)
    decreases |a|
  {
    if |a| > 0 {
      LexLeReflexive(a[1..]);
    }
  }

  lemma {:induction false} LexLeTotal(a: seq<int>, b: seq<int>)
    ensures LexLe(a, b) || LexLe(b, a)
    decreases |a|
  {
    if |a| > 0 && |b| > 0 && a[0] == b[0] {
      LexLeTotal(a[1..], b[1..]);
    }
  }

  lemma {:induction false} LexLeTransitive(a: seq<int>, b: seq<int>, c: seq<int>)
    requires LexLe(a, b) && LexLe(b, c)
    ensures LexLe(a, c)
    decreases |a|
  {
    if |a| > 0 && |b| > 0 && |c| > 0 && a[0] == b[0] && b[0] == c[0] {
      LexLeTransitive(a[1..], b[1..], c[1..]);
    }
  }

  lemma {:induction false} LexLeAntisymmetric(a: seq<int>, b: seq<int>)
    requires LexLe(a, b) && LexLe(b, a)
    ensures a == b
    decreases |a|
  {
    if |a| > 0 && |b| > 0 {
      LexLeAntisymmetric(a[1..], b[1..]);
      assert a == [a[0]] + a[1..];
      assert b == [b[0]] + b[1..];
    }
  }

  /** Two-component keys compare by the first component, then by the second. */
  lemma {:induction false} PairOrder(p: int, x: int, q: int, y: int)
    ensures LexLe([p, x], [q, y]) <==> p < q || (p == q && x <= y)
  {
    assert [p, x][1..] == [x];
    assert [q, y][1..] == [y];
    assert LexLe([x], [y]) == (x <= y) by {
      assert [x][1..] == [];
      assert LexLe([x][1..], [y][1..]);
    }
  }

  predicate SortedBy<T>(s: seq<T>, key: T -> seq<int>)
  {
    forall i, j :: 0 <= i < j < |s| ==> LexLe(key(s[i]), key(s[j]))
  }

  /** The elements of `s` whose key is `k`, in their order in `s`. */
  function WithKey<T>(s: seq<T>, key: T -> seq<int>, k: seq<int>): (r: seq<T>)
    ensures |r| <= |s|
  {
    if |s| == 0 then []
    else if key(s[0]) == k then [s[0]] + WithKey(s[1..], key, k)
    else WithKey(s[1..], key, k)
  }

  /** Places `x` before the first element whose key is not smaller than its own. */
  function Insert<T>(x: T, s: seq<T>, key: T -> seq<int>): (r: seq<T>)
  {
    if |s| == 0 then [x]
    else if LexLe(key(x), key(s[0])) then [x] + s
    else [s[0]] + Insert(x, s[1..], key)
  }

  lemma {:induction false} InsertSorted<T>(x: T, s: seq<T>, key: T -> seq<int>)
    requires SortedBy(s, key)
    ensures SortedBy(Insert(x, s, key), key)
    decreases |s|
  {
    if |s| == 0 {
    } else if LexLe(key(x), key(s[0])) {
      var r := [x] + s;
      forall i, j | 0 <= i < j < |r|
        ensures LexLe(key(r[i]), key(r[j]))
      {
        if i == 0 {
          if j > 1 {
            LexLeTransitive(key(x), key(s[0]), key(s[j - 1]));
          }
        } else {
          assert r[i] == s[i - 1] && r[j] == s[j - 1];
        }
      }
    } else {
      LexLeTotal(key(x), key(s[0]));
      var t := Insert(x, s[1..], key);
      InsertSorted(x, s[1..], key);
      InsertElements(x, s[1..], key);
      var r := [s[0]] + t;
      forall i, j | 0 <= i < j < |r|
        ensures LexLe(key(r[i]), key(r[j]))
      {
        if i == 0 {
          var e := r[j];
          assert e in t;
          if e != x {
            var m :| 0 <= m < |s[1..]| && s[1..][m] == e;
            assert s[m + 1] == e;
          }
        } else {
          assert r[i] == t[i - 1] && r[j] == t[j - 1];
        }
      }
    }
  }

  lemma {:induction false} InsertElements<T>(x: T, s: seq<T>, key: T -> seq<int>)
    ensures forall e :: e in Insert(x, s, key) ==> e == x || e in s
    ensures |Insert(x, s, key)| == |s| + 1
    decreases |s|
  {
    if |s| > 0 && !LexLe(key(x), key(s[0])) {
      InsertElements(x, s[1..], key);
    }
  }

  lemma {:induction false} InsertMultiset<T>(x: T, s: seq<T>, key: T -> seq<int>)
    ensures multiset(Insert(x, s, key)) == multiset(s) + multiset{x}
    decreases |s|
  {
    if |s| > 0 && !LexLe(key(x), key(s[0])) {
      InsertMultiset(x, s[1..], key);
      assert s == [s[0]] + s[1..];
    }
  }

  /** Inserting `x` adds it to its own key class only, in front of that class. */
  lemma {:induction false} InsertWithKey<T>(x: T, s: seq<T>, key: T -> seq<int>, k: seq<int>)
    ensures WithKey(Insert(x, s, key), key, k)
         == (if key(x) == k then [x] else []) + WithKey(s, key, k)
    decreases |s|
  {
    if |s| == 0 {
    } else if LexLe(key(x), key(s[0])) {
      assert ([x] + s)[1..] == s;
    } else {
      LexLeReflexive(key(x));
      assert key(s[0]) != key(x);
      InsertWithKey(x, s[1..], key, k);
      assert ([s[0]] + Insert(x, s[1..], key))[1..] == Insert(x, s[1..], key);
    }
  }

  /**
   Python's stable sort by `key`: the result is ordered by key, holds the same
   elements, and keeps elements with equal keys in their original order.
   */
  function SortBy<T>(s: seq<T>, key: T -> seq<int>): (r: seq<T>)
    ensures SortedBy(r, key)
    ensures multiset(r) == multiset(s)
    ensures forall k :: WithKey(r, key, k) == WithKey(s, key, k)
    decreases |s|
  {
    if |s| == 0 then []
    else
      var t := SortBy(s[1..], key);
      InsertStep(s, t, key);
      Insert(s[0], t, key)
  }

  /** Inserting the head into the sorted tail sorts the whole sequence. */
  lemma {:induction false} InsertStep<T>(s: seq<T>, t: seq<T>, key: T -> seq<int>)
    requires |s| > 0
    requires SortedBy(t, key) && multiset(t) == multiset(s[1..])
    requires forall k :: WithKey(t, key, k) == WithKey(s[1..], key, k)
    ensures SortedBy(Insert(s[0], t, key), key)
    ensures multiset(Insert(s[0], t, key)) == multiset(s)
    ensures forall k :: WithKey(Insert(s[0], t, key), key, k) == WithKey(s, key, k)
  {
    InsertSorted(s[0], t, key);
    InsertMultiset(s[0], t, key);
    assert s == [s[0]] + s[1..];
    forall k
      ensures WithKey(Insert(s[0], t, key), key, k) == WithKey(s, key, k)
    {
      InsertWithKey(s[0], t, key, k);
    }
  }

  /** Sorting an already sorted sequence changes nothing. */
  lemma {:induction false} SortBySorted<T>(s: seq<T>, key: T -> seq<int>)
    requires SortedBy(s, key)
    ensures SortBy(s, key) == s
    decreases |s|
  {
    if |s| > 0 {
      var t := s[1..];
      assert SortedBy(t, key) by {
        forall i, j | 0 <= i < j < |t|
          ensures LexLe(key(t[i]), key(t[j]))
        {
          assert t[i] == s[i + 1] && t[j] == s[j + 1];
        }
      }
      SortBySorted(t, key);
      assert SortBy(s, key) == Insert(s[0], t, key);
      if |t| > 0 {
        assert t[0] == s[1];
        assert LexLe(key(s[0]), key(t[0]));
      }
      assert s == [s[0]] + t;
    }
  }

  /** Sorting two elements swaps them exactly when the first key is above the second; equal keys stay in place. */
  lemma {:induction false} SortTwo<T>(x: T, y: T, key: T -> seq<int>)
    ensures SortBy([x, y], key) == if LexLe(key(x), key(y)) then [x, y] else [y, x]
  {
    assert [x, y][1..] == [y];
    assert [y][1..] == [];
    assert SortBy([y], key) == [y];
  }

  /** Code points compare as Python compares the strings: `a <= b`. */
  lemma {:induction false} CodePointsOrder(a: string, b: string)
    ensures LexLe(CodePoints(a), CodePoints(b)) <==> StrLess(a, b) || a == b
    decreases |a|
  {
    if |a| > 0 && |b| > 0 && a[0] == b[0] {
      CodePointsOrder(a[1..], b[1..]);
      assert CodePoints(a)[1..] == CodePoints(a[1..]);
      assert CodePoints(b)[1..] == CodePoints(b[1..]);
      assert a == b <==> a[1..] == b[1..] by {
        assert a == [a[0]] + a[1..];
        assert b == [b[0]] + b[1..];
      }
    }
  }

  /**
   The key of a (string, integer) pair: the string's code points, a marker
   below every code point, then the integer. Keys compare as Python compares
   the pairs: by the string first, then by the integer.
   */
  function StrIntKey(a: string, x: int): (k: seq<int>)
  {
    CodePoints(a) + [-1, x]
  }

  lemma {:induction false} StrIntKeyOrder(a: string, x: int, b: string, y: int)
    ensures LexLe(StrIntKey(a, x), StrIntKey(b, y)) <==> StrLess(a, b) || (a == b && x <= y)
    decreases |a|
  {
    var ka, kb := StrIntKey(a, x), StrIntKey(b, y);
    if |a| == 0 && |b| == 0 {
      assert ka == [-1, x] && kb == [-1, y];
      PairOrder(-1, x, -1, y);
    } else if |a| == 0 {
      assert ka[0] == -1 && kb[0] == b[0] as int;
    } else if |b| == 0 {
      assert ka[0] == a[0] as int && kb[0] == -1;
    } else if a[0] != b[0] {
      assert ka[0] == a[0] as int && kb[0] == b[0] as int;
    } else {
      StrIntKeyOrder(a[1..], x, b[1..], y);
      assert ka[1..] == StrIntKey(a[1..], x);
      assert kb[1..] == StrIntKey(b[1..], y);
      assert a == b <==> a[1..] == b[1..] by {
        assert a == [a[0]] + a[1..];
        assert b == [b[0]] + b[1..];
      }
    }
  }
}

=== FILE: text.dfy ===
/**
 String helpers with the meaning Python gives them on ASCII text: case mapping,
 decimal digits, `in` on substrings, `str.replace(pat, "")` and the code-point
 order Python uses to compare strings.
 */
module Text {

  predicate IsUpperAscii(c: char) { 'A' <= c <= 'Z' }

  predicate IsLowerAscii(c: char) { 'a' <= c <= 'z' }

  /** `str.lower()` on one character (ASCII letters only). */
  function LowerChar(c: char): (d: char)
    ensures IsUpperAscii(c) ==> IsLowerAscii(d) && d as int == c as int + 32
    ensures !IsUpperAscii(c) ==> d == c
  {
    if IsUpperAscii(c) then (c as int + 32) as char else c
  }

  /** `str.upper()` on one character (ASCII letters only). */
  function UpperChar(c: char): (d: char)
    ensures IsLowerAscii(c) ==> IsUpperAscii(d) && d as int == c as int - 32
    ensures !IsLowerAscii(c) ==> d == c
  {
    if IsLowerAscii(c) then (c as int - 32) as char else c
  }

  function Lower(s: string): (r: string)
    ensures |r| == |s|
    ensures forall i :: 0 <= i < |s| ==> r[i] == LowerChar(s[i])
  {
    seq(|s|, i requires 0 <= i < |s| => LowerChar(s[i]))
  }

  function Upper(s: string): (r: string)
    ensures |r| == |s|
    ensures forall i :: 0 <= i < |s| ==> r[i] == UpperChar(s[i])
  {
    seq(|s|, i requires 0 <= i < |s| => UpperChar(s[i]))
  }

  /** A string that `str.lower()` leaves as it is. */
  predicate IsLowered(s: string)
  {
    forall i :: 0 <= i < |s| ==> !IsUpperAscii(s[i])
  }

  lemma {:induction false} LowerOfLowered(s: string)
    requires IsLowered(s)
    ensures Lower(s) == s
  {
  }

  /** Upper-casing loses nothing on strings without upper-case letters. */
  lemma {:induction false} UpperInjective(a: string, b: string)
    requires IsLowered(a) && IsLowered(b)
    requires Upper(a) == Upper(b)
    ensures a == b
  {
    forall i | 0 <= i < |a|
      ensures a[i] == b[i]
    {
      assert Upper(a)[i] == Upper(b)[i];
    }
  }

  predicate IsDigit(c: char) { '0' <= c <= '9' }

  predicate IsDigits(s: string)
  {
    forall i :: 0 <= i < |s| ==> IsDigit(s[i])
  }

  /** The value of a decimal numeral, most significant digit first. */
  function DigitsValue(s: string): (v: nat)
    requires IsDigits(s)
  {
    if |s| == 0 then 0
    else DigitsValue(s[..|s| - 1]) * 10 + (s[|s| - 1] as int - '0' as int)
  }

  /** Python's `sub in s` for strings. */
  predicate Contains(s: string, sub: string)
    ensures sub <= s ==> Contains(s, sub)
    ensures Contains(s, sub) ==> |sub| <= |s|
  {
    sub <= s || (|s| > 0 && Contains(s[1..], sub))
  }

  /** An occurrence of `sub` at index `i` makes `sub in s` hold. */
  lemma {:induction false} ContainsFrom(s: string, sub: string, i: nat)
    requires i <= |s| && sub <= s[i..]
    ensures Contains(s, sub)
    decreases i
  {
    if i == 0 {
      assert s[0..] == s;
    } else {
      assert s[1..][i - 1..] == s[i..];
      ContainsFrom(s[1..], sub, i - 1);
    }
  }

  /** When `sub in s` holds, `sub` occurs at some index of `s`. */
  lemma {:induction false} ContainsSomewhere(s: string, sub: string)
    requires Contains(s, sub)
    ensures exists i :: 0 <= i <= |s| - |sub| && sub <= s[i..]
    decreases |s|
  {
    if sub <= s {
      assert s[0..] == s;
    } else {
      ContainsSomewhere(s[1..], sub);
      var i :| 0 <= i <= |s[1..]| - |sub| && sub <= s[1..][i..];
      assert s[1..][i..] == s[i + 1..];
    }
  }

  /** `sub in s` holds exactly when `sub` occurs at some index of `s`. */
  lemma {:induction false} ContainsAt(s: string, sub: string)
    ensures Contains(s, sub) <==> exists i :: 0 <= i <= |s| - |sub| && sub <= s[i..]
  {
    if Contains(s, sub) {
      ContainsSomewhere(s, sub);
    }
    if exists i :: 0 <= i <= |s| - |sub| && sub <= s[i..] {
      var i :| 0 <= i <= |s| - |sub| && sub <= s[i..];
      ContainsFrom(s, sub, i);
    }
  }

  /** Python's `s.replace(pat, "")`: occurrences are removed left to right, without overlap. */
  function RemoveAll(s: string, pat: string): (r: string)
    requires |pat| > 0
    ensures |r| <= |s|
    ensures !Contains(s, pat) ==> r == s
    ensures Contains(s, pat) ==> |r| <= |s| - |pat|
    decreases |s|
  {
    if |s| == 0 then []
    else if pat <= s then RemoveAll(s[|pat|..], pat)
    else [s[0]] + RemoveAll(s[1..], pat)
  }

  /** `replace` drops an occurrence at the front and carries on after it. */
  lemma {:induction false} RemoveAllAtFront(s: string, pat: string)
    requires |pat| > 0 && pat <= s
    ensures RemoveAll(s, pat) == RemoveAll(s[|pat|..], pat)
  {
  }

  /** `replace` keeps a first character that does not start an occurrence. */
  lemma {:induction false} RemoveAllKeepsFront(s: string, pat: string)
    requires |pat| > 0 && |s| > 0 && !(pat <= s)
    ensures RemoveAll(s, pat) == [s[0]] + RemoveAll(s[1..], pat)
  {
  }

  /** No occurrence before index `i` of `s` means none before index `i - 1` of its tail. */
  lemma {:induction false} NoEarlierOccurrenceInTail(s: string, pat: string, i: nat)
    requires 0 < i <= |s|
    requires forall j :: 0 <= j < i ==> !(pat <= s[j..])
    ensures forall j :: 0 <= j < i - 1 ==> !(pat <= s[1..][j..])
  {
    forall j | 0 <= j < i - 1
      ensures !(pat <= s[1..][j..])
    {
      assert s[1..][j..] == s[j + 1..];
    }
  }

  /** A sequence is its first element in front of its tail. */
  lemma {:induction false} ConsOfTail<T>(p: seq<T>, x: seq<T>)
    requires |p| > 0
    ensures [p[0]] + (p[1..] + x) == p + x
  {
    assert [p[0]] + p[1..] == p;
  }

  /** `pat` starts at none of the first `i` indices of `s`, stated one index at a time. */
  predicate NoOccurrenceBefore(s: string, pat: string, i: nat)
    decreases i
  {
    i == 0 || (|s| > 0 && !(pat <= s) && NoOccurrenceBefore(s[1..], pat, i - 1))
  }

  /** The index-by-index statement follows from the quantified one. */
  lemma {:induction false} NoOccurrenceBeforeOf(s: string, pat: string, i: nat)
    requires i <= |s|
    requires forall j :: 0 <= j < i ==> !(pat <= s[j..])
    ensures NoOccurrenceBefore(s, pat, i)
    decreases i
  {
    if i > 0 {
      assert s[0..] == s;
      NoEarlierOccurrenceInTail(s, pat, i);
      NoOccurrenceBeforeOf(s[1..], pat, i - 1);
    }
  }

  /**
   `replace` scans left to right: when `pat` first occurs in `s` right after
   `p`, the text `p` is kept, that occurrence is dropped, and the rest `q` is
   treated the same way.
   */
  lemma {:induction false} RemoveAllAtFirst(p: string, pat: string, q: string)
    requires |pat| > 0
    requires forall j :: 0 <= j < |p| ==> !(pat <= (p + pat + q)[j..])
    ensures RemoveAll(p + pat + q, pat) == p + RemoveAll(q, pat)
  {
    NoOccurrenceBeforeOf(p + pat + q, pat, |p|);
    RemoveAllAfter(p, pat, q);
  }

  /** RemoveAllAtFirst, by induction on the text before the first occurrence. */
  lemma {:induction false} RemoveAllAfter(p: string, pat: string, q: string)
    requires |pat| > 0
    requires NoOccurrenceBefore(p + pat + q, pat, |p|)
    ensures RemoveAll(p + pat + q, pat) == p + RemoveAll(q, pat)
    decreases |p|
  {
    var s := p + pat + q;
    if |p| == 0 {
      assert s == pat + q && s[|pat|..] == q;
      RemoveAllAtFront(s, pat);
    } else {
      assert s[1..] == p[1..] + pat + q;
      RemoveAllAfter(p[1..], pat, q);
      RemoveAllKeepsFront(s, pat);
      assert s[0] == p[0];
      ConsOfTail(p, RemoveAll(q, pat));
    }
  }

  /** A numeral followed by a suffix that no numeral can start is recovered by `replace`. */
  lemma {:induction false} RemoveSuffixOfDigits(d: string, pat: string)
    requires |pat| > 0 && !IsDigit(pat[0])
    requires IsDigits(d)
    ensures RemoveAll(d + pat, pat) == d
    decreases |d|
  {
    if |d| == 0 {
      assert pat <= d + pat;
      assert (d + pat)[|pat|..] == [];
    } else {
      assert (d + pat)[0] == d[0];
      assert !(pat <= d + pat);
      assert (d + pat)[1..] == d[1..] + pat;
      RemoveSuffixOfDigits(d[1..], pat);
      assert [d[0]] + d[1..] == d;
    }
  }

  /** Python's `<` on strings: code-point order, a proper prefix first. */
  predicate StrLess(a: string, b: string)
  {
    if |a| == 0 then |b| > 0
    else if |b| == 0 then false
    else if a[0] != b[0] then a[0] < b[0]
    else StrLess(a[1..], b[1..])
  }

  /** The code points of a string, as the integers Python compares. */
  function CodePoints(s: string): (r: seq<int>)
    ensures |r| == |s|
    ensures forall i :: 0 <= i < |s| ==> r[i] == s[i] as int && r[i] >= 0
  {
    seq(|s|, i requires 0 <= i < |s| => s[i] as int)
  }
}

=== FILE: wrappers.dfy ===
/** The Some/None datatype used for the scripts' "no match" and "skip this file" results. */
module Wrappers {

  datatype Option<+T> = None | Some(value: T)

  /** The values `f` yields over `xs`, in order, skipping the elements it yields None for. */
  function FilterMap<A, B>(xs: seq<A>, f: A -> Option<B>): (ys: seq<B>)
    ensures |ys| <= |xs|
  {
    if |xs| == 0 then []
    else (if f(xs[0]).Some? then [f(xs[0]).value] else []) + FilterMap(xs[1..], f)
  }

  /** A value is kept exactly when some element yields it. */
  lemma {:induction false} FilterMapMembers<A, B>(xs: seq<A>, f: A -> Option<B>)
    ensures forall y :: y in FilterMap(xs, f) <==> exists x :: x in xs && f(x) == Some(y)
    decreases |xs|
  {
    if |xs| > 0 {
      var rest := xs[1..];
      FilterMapMembers(rest, f);
      assert forall x :: x in xs <==> x == xs[0] || x in rest by {
        assert xs == [xs[0]] + rest;
      }
    }
  }

  /** Elements are mapped one at a time, so FilterMap distributes over concatenation. */
  lemma {:induction false} FilterMapAppend<A, B>(xs: seq<A>, ys: seq<A>, f: A -> Option<B>)
    ensures FilterMap(xs + ys, f) == FilterMap(xs, f) + FilterMap(ys, f)
    decreases |xs|
  {
    if |xs| == 0 {
      assert xs + ys == ys;
    } else {
      var head := if f(xs[0]).Some? then [f(xs[0]).value] else [];
      assert (xs + ys)[0] == xs[0] && (xs + ys)[1..] == xs[1..] + ys;
      assert FilterMap(xs + ys, f) == head + FilterMap(xs[1..] + ys, f);
      FilterMapAppend(xs[1..], ys, f);
      assert FilterMap(xs, f) == head + FilterMap(xs[1..], f);
    }
  }

  /** An element that yields None can be dropped without changing the result. */
  lemma {:induction false} FilterMapSkip<A, B>(xs: seq<A>, x: A, ys: seq<A>, f: A -> Option<B>)
    requires f(x).None?
    ensures FilterMap(xs + [x] + ys, f) == FilterMap(xs + ys, f)
  {
    FilterMapAppend(xs + [x], ys, f);
    FilterMapAppend(xs, [x], f);
    FilterMapAppend(xs, ys, f);
    assert [x][1..] == [];
    assert FilterMap([x], f) == [];
  }

  /** An element that yields a value contributes exactly that value, in its place. */
  lemma {:induction false} FilterMapKeep<A, B>(xs: seq<A>, x: A, ys: seq<A>, f: A -> Option<B>)
    requires f(x).Some?
    ensures FilterMap(xs + [x] + ys, f) == FilterMap(xs, f) + [f(x).value] + FilterMap(ys, f)
  {
    FilterMapAppend(xs + [x], ys, f);
    FilterMapAppend(xs, [x], f);
    assert [x][1..] == [];
    assert FilterMap([x], f) == [f(x).value];
  }
}
